=== FILE: README.md ===
# A model of the chat server's dispatcher

The `lib` package of this TCP chat server keeps three pieces of shared
state. The directory holds the live sessions, keyed by connection. The room
table maps canonical `#name` strings to rooms. Each room has a roster of the
connections in it. Every connection has a reader that turns each line it
reads into a command and puts it on one queue. A single dispatcher takes
commands off that queue and runs one handler per command to completion:
`nick`, `join`, `rooms`, `msg` (room chat), `msg` to a user, `members`,
`whois`, `me`, `help` and `quit`. A new connection is named after its
address and is put in `#lobby`.

This project states that behaviour in Dafny and proves properties of it:

- `wrappers.dfy`: `Option`.
- `gostrings.dfy`: the parts of Go's `strings` package the server uses.
  These are `HasPrefix`, `Trim` with a cut set, `Split` on a one-byte
  separator and `Join`. A `char` stands for one byte. `HasPrefix` and
  `Join` are plain definitions: `Join` puts the separator between each
  pair of pieces, and `JoinSplit` and `SplitJoin` tie it to `Split`.
- `delivery.dfy`: what the server writes. A `Mail` maps each connection to
  the ordered list of strings written to it. `Then` is "these writes, then
  those".
- `command.dfy`: the ten command kinds with their `iota` values, and the
  command record.
- `room.dfy`: a room, its roster, `broadcast`, `addMember` and
  `removeMember`.
- `state.dfy`: the server state and its invariants. Client records are kept
  by connection id and outlive their removal from the directory, as Go
  objects do. `Consistent` says a live session names room `r` exactly when it
  is on `r`'s roster, and that rosters hold live sessions only. `UniqueNicks`
  says no two live sessions share a nick.
- `client.dfy`: a client's own room moves `join` and `leave`. `Equal`, the
  address comparison, is in `delivery.dfy`: a connection id stands for the
  remote address, so it is id equality, and `broadcast` uses it to skip the
  sender.
- `server.dfy`: room-name canonicalization, `getOrCreateRoom`, the lookup by
  nick, every handler, the connect step, the dispatcher's switch and the
  serialized loop.
  - `Run` feeds the dispatcher a sequence of accepted connections and
    dequeued commands. The map iteration orders for each step come from a
    function of the step number and the state.
  - `Admissible` describes the sequences the accept loop and the readers
    can produce (lib/server.go:64-71, lib/client.go:37-113): accepted
    connections are new, commands come from live sessions, and a session
    sends nothing after its quit. `Protocol.AcceptedSessionAdmissible`
    shows one session's stream meets it.
- `reader.dfy`: the line front end. It covers truncation to 4096 bytes, the
  CR/LF trim, the split on single spaces and keyword classification.
  `ErrText` is the "err: " prefix that `c.err` writes (lib/client.go:115-117)
  for an unknown keyword. It also
  models the read loop as a function of the lines read, and shows that every
  exit of the loop enqueues exactly one quit command.
- `invariants.dfy`: `Consistent` is preserved by every handler, by the
  connect step and by the whole loop. `UniqueNicks` is preserved by every
  command; the connect step keeps it only when the new address is no live
  session's nick, which the source does not check, so no statement about
  the whole loop carries it. It also proves that
  running two input sequences one after the other is the same as running
  them joined.
- `protocol.dfy`: what reader and dispatcher do together with a typed line,
  one lemma per keyword. It also shows that a session's reader output,
  after its accept, is an admissible input to the loop.

The reader passes its whole token list as the arguments, keyword included.
The handlers take their operand from the first argument. Both sides are
modelled as written, so their combination behaves as follows, as proved in
`protocol.dfy`:

- the line "/join test" puts the caller in `#/join`;
- "/nick bob" renames the caller to "/nick";
- "/msg bob hi" looks for a user called "/msg".

`/members` lists the nick of every session in the directory, not only
those in the caller's room. Renaming yourself to your current nick is
refused as "already taken". The connect step does not check that the
address is free as a nick, so two live sessions can share one; a lookup
by nick then takes the first of them in iteration order. `quit` leaves the client's room field as it was,
so the invariants speak about live sessions only.

## Model

| member | source | states |
|---|---|---|
| Delivery.Reply | lib/client.go:119-121 | one `c.msg` writes exactly the text plus a newline to that connection and nothing anywhere else |
| Delivery.Replies | lib/client.go:119-121 | successive `c.msg` calls write one newline-terminated line per text, in order, to that connection only |
| Delivery.Then | lib/server.go:180-181 | handler writes that happen one after the other reach each connection in that order: the first call's lines, then the second's |
| GoStrings.TrimBounds | lib/client.go:48 | what the CR/LF trim drops at either end consists only of cut characters, and the kept slice neither starts nor ends with one |
| GoStrings.Trim | lib/client.go:48 | the trimmed line is a contiguous slice of the input (interior bytes kept) with no `\r`/`\n` at either end |
| GoStrings.TrimFixesTrimmed | lib/client.go:48 | a line with no CR/LF at its ends is left unchanged by the trim |
| GoStrings.TrimIdempotent | lib/client.go:48 | trimming an already trimmed line changes nothing |
| GoStrings.TrimPadded | lib/client.go:48 | a body with no CR/LF at its ends (empty or not) followed by any run of CR/LF bytes trims back to exactly the body |
| GoStrings.Split | lib/client.go:50 | splitting on a space yields at least one token (the empty line gives one empty token), and no token contains a space |
| GoStrings.JoinSplit | lib/client.go:50 | joining the tokens of a split with the separator restores the split string |
| GoStrings.SplitJoin | lib/client.go:50 | splitting a join of separator-free pieces gives back exactly those pieces |
| Commands.Value | lib/command.go:5-16 | each kind's value is its position in declaration order, 0 through 9 |
| Commands.FromValue | lib/command.go:5-16 | an integer names a kind exactly when it lies in 0..9, and then the kind's value is that integer |
| Commands.KindsAreTenDistinct | lib/command.go:5-16 | there are exactly ten kinds, pairwise distinct, and value and kind convert back and forth |
| Commands.ValueInjective | lib/command.go:5-16 | two kinds have the same value only when they are the same kind |
| Rooms.Broadcast | lib/room.go:15-21 | every roster member other than the sender receives the text exactly once, and nobody else receives anything |
| Rooms.BroadcastSkipsEqual | lib/client.go:149-151 | `Equal`, the remote-address comparison, is exactly the test broadcast uses: a roster member receives nothing exactly when it is the sender |
| Rooms.AddMember | lib/room.go:23-28 | the roster gains the newcomer (no change if already there), the name is kept, and the other members hear "<nick> has joined the room" once |
| Rooms.RemoveMember | lib/room.go:30-36 | the client is off the roster and the others are kept; the members other than the client hear "<nick> has left the room" even when it was not on the roster |
| Rooms.RemoveUndoesAdd | lib/room.go:23-36 | removing a newcomer right after adding it restores the room as it was |
| Sessions.Initial | lib/server.go:24-34 | a new server has an empty directory and an empty room table |
| Sessions.AtMostOneRoster | lib/client.go:134-147 | under the membership invariant a live session is on at most one roster |
| Clients.Leave | lib/client.go:140-147 | a client in no room changes nothing; otherwise its room field is cleared, it leaves its old roster only, and that room's other members are told it left |
| Clients.Enter | lib/client.go:136-137 | the room field points at the new room, the client is added to that roster only, and the others there are told it joined |
| Clients.Join | lib/client.go:134-138 | afterwards the client names the new room and is on its roster; it is off the old room's roster; every other room is untouched |
| Clients.JoinWrites | lib/client.go:134-138 | the moving client hears nothing; each other client hears the left notice if it shared the old room, then the joined notice if it is in the new one |
| Reader.ReadLimited | lib/client.go:24-35 | the kept line is a prefix of the read line, at most 4096 bytes long, exactly 4096 when the line is longer, and the whole line otherwise |
| Reader.Tokens | lib/client.go:48-50 | every read line yields at least one token |
| Reader.TokensOfLine | lib/client.go:48-50 | a line of at most 4096 bytes ending in CR/LF bytes is split on exactly what precedes them; a line of CR/LF bytes only gives one empty token |
| Reader.Keyword | lib/client.go:55-104 | known keywords other than "/quit" enqueue a command of the matching kind (checked against an independent keyword table) from the reader's client; "/nick", "/join", "/msg", "/whois" carry the whole token list and the rest carry none; "/quit" stops; anything else writes "err: unknown command: <kw>" |
| Reader.Classify | lib/client.go:53-111 | every enqueued command is the reader's client's and is never a quit |
| Reader.ClassifyCases | lib/client.go:51-111 | a line whose space-trimmed first token does not start with '/' becomes plain chat with all its tokens; a slash line never becomes plain chat, stops only on "/quit" and complains exactly on unknown keywords |
| Reader.Loop | lib/client.go:37-113 | the loop emits one event per line until the first "/quit" or the end of input, then exactly one quit command as its last event |
| Reader.ReadInput | lib/client.go:37-113 | the event stream ends with the quit command, contains no other quit, and every command sent is the reader's own client's |
| Reader.ReadInputEvents | lib/client.go:41-112 | each event before the exit is the classification of the corresponding line, and the loop exits at a "/quit" line or when the lines run out |
| Reader.OneQuit | lib/client.go:153-158 | exactly one quit command comes out of a reader, however its loop ends |
| Reader.ChatTokensRejoin | lib/client.go:105-110 | the tokens of a plain-chat command, joined with spaces, are the truncated and CR/LF-trimmed line |
| Dispatcher.Canonical | lib/server.go:158-160 | a canonical room name starts with '#'; a name already starting with '#' is kept, any other gets '#' in front |
| Dispatcher.CanonicalIdempotent | lib/server.go:158-160 | canonicalizing a canonical name changes nothing |
| Dispatcher.LobbyIsCanonical | lib/server.go:112 | the lobby name is its own canonical form |
| Dispatcher.GetOrCreateRoom | lib/server.go:154-171 | returns the canonical name, which is then in the table; an existing room leaves the state unchanged, otherwise exactly one empty room is added under that name; no room is removed |
| Dispatcher.FindIn | lib/server.go:223-230 | scanning clients in a given order finds nothing exactly when none of them has the nick, and otherwise finds the first one in that order that has it |
| Dispatcher.FindClientByNick | lib/server.go:223-230 | a session is found exactly when some live session has the nick, the one found has it, and it is the first such session in the iteration order, so with unique nicks it is that session whatever the order |
| Dispatcher.Nick | lib/server.go:132-152 | no argument gives the usage text; a nick held by any live session (the caller included) is refused and nothing changes; otherwise only the caller's nick changes, the caller is told, and its room's other members hear "<old> is now known as <new>" |
| Dispatcher.Join | lib/server.go:173-182 | no argument gives the usage text; otherwise the caller names the canonical room and is on its roster, the room exists, and only that room may have been added |
| Dispatcher.JoinWrites | lib/server.go:173-182 | the caller is welcomed to the canonical room; each other client hears the left notice if it shared the old room, then the joined notice if it was in the new one |
| Dispatcher.ListRooms | lib/server.go:184-191 | the caller alone gets one line naming each room-table key exactly once, in the iteration order; the state is unchanged |
| Dispatcher.Msg | lib/server.go:193-200 | in a room, every other roster member receives "<nick>: " and the arguments joined by spaces, and the sender nothing; in no room, only the sender hears "you must join a room first."; the state never changes |
| Dispatcher.MsgUser | lib/server.go:202-221 | fewer than two arguments give the usage text; an unknown nick gives "user X not found"; a nick the lookup resolves to the caller is refused (with distinct nicks: the caller's own nick); otherwise the first live session in iteration order with that nick receives the private message made of the remaining arguments |
| Dispatcher.ListMembers | lib/server.go:232-238 | the caller alone gets one line with the nicks of all directory members in iteration order; the state is unchanged |
| Dispatcher.ListedNicksAreMembers | lib/server.go:232-238 | a name is listed exactly when it is the nick of some live session |
| Dispatcher.WhoisTexts | lib/client.go:123-132 | the description is nick, address, joined time and elapsed time, plus the room line exactly when the client is in a room |
| Dispatcher.Whois | lib/server.go:240-254 | no argument gives the usage text; an unknown nick gives "user X not found"; otherwise the caller alone receives the description of the first live session in iteration order with that nick, one line per item; the state is unchanged |
| Dispatcher.Me | lib/server.go:256-258 | the caller alone receives its own description, line for line the one whois gives for it (four lines, five when in a room); the state is unchanged |
| Dispatcher.Help | lib/server.go:260-272 | the caller alone receives the eleven help lines, in order; the state is unchanged |
| Dispatcher.AddMember | lib/server.go:117-121 | the directory gains the client and nothing else changes |
| Dispatcher.RemoveMember | lib/server.go:123-130 | the client leaves the directory and, if it has a room, that room's roster (the others there are told); its room field and its record are left as they were |
| Dispatcher.Quit | lib/server.go:274-281 | the caller leaves the directory and its roster, every other room is untouched, its old room's members hear it left, and it hears the farewell |
| Dispatcher.Enter | lib/server.go:104-111 | the new client record is named after its address, has no room yet and is in the directory; rooms are unchanged |
| Dispatcher.Connect | lib/server.go:101-115 | the newcomer is in the directory, named after its address, in "#lobby" and on its roster; "#lobby" is created if missing and nothing else is added |
| Dispatcher.ConnectWrites | lib/server.go:101-115 | the newcomer is welcomed to "#lobby" and whoever was already there hears it joined, under its address |
| Dispatcher.Stateless | lib/server.go:74-98 | rooms, members, msg and msgUser, whois, me and help leave the state unchanged, and the query commands write to the caller only |
| Dispatcher.Stateful | lib/server.go:74-98 | nick, join and quit neither add nor drop client records; only quit takes the caller out of the directory |
| Dispatcher.Dispatch | lib/server.go:74-98 | only nick, join and quit change the state, only quit changes the directory, and the queries answer the caller alone |
| Dispatcher.DispatchNick | lib/server.go:76-77 | a nick command renames the caller to its first argument when that nick is free |
| Dispatcher.DispatchJoin | lib/server.go:78-79 | a join command puts the caller in the canonical form of the room its first argument names |
| Dispatcher.DispatchRooms | lib/server.go:80-81 | a rooms command answers the caller alone with the room names in iteration order and changes nothing |
| Dispatcher.DispatchMsg | lib/server.go:82-83 | a msg command from a client in a room reaches every other member of that room as "<nick>: " plus the arguments, and nobody else |
| Dispatcher.DispatchMsgUser | lib/server.go:84-85 | a private-message command leaves the state unchanged; a first argument that is nobody's nick tells the caller "user X not found"; with distinct nicks, naming oneself is refused and naming another live session delivers "private message from NICK: TEXT" to that session alone |
| Dispatcher.DispatchMembers | lib/server.go:86-87 | a members command answers the caller alone with every live nick in iteration order and changes nothing |
| Dispatcher.DispatchWhois | lib/server.go:88-89 | a whois command whose first argument is nobody's nick tells the caller "user X not found" |
| Dispatcher.DispatchMe | lib/server.go:90-91 | a me command sends the caller its own description, one line per item, and changes nothing |
| Dispatcher.DispatchHelp | lib/server.go:92-93 | a help command sends the caller the help lines in order and changes nothing |
| Dispatcher.DispatchQuit | lib/server.go:94-95 | a quit command takes the caller out of the directory and sends it the farewell |
| Dispatcher.Handle | lib/server.go:63-98 | an accepted connection adds exactly that client to the records and the directory; a dequeued command keeps the records and changes the directory only by quit |
| Dispatcher.Run | lib/server.go:74-98 | handling the inputs in order, each to completion and each with its own map iteration orders, keeps the state well formed |
| Invariants.LeaveConsistent | lib/client.go:140-147 | leaving keeps the membership invariant and leaves the client on no roster |
| Invariants.EnterConsistent | lib/client.go:136-137 | entering a room keeps the invariant and puts the client on that roster only |
| Invariants.ClientJoinConsistent | lib/client.go:134-138 | a client's join keeps the invariant and leaves it on exactly the new room's roster |
| Invariants.GetOrCreateConsistent | lib/server.go:154-171 | creating a room keeps the invariant |
| Invariants.JoinConsistent | lib/server.go:173-182 | join keeps the invariant; with a room name the caller ends up on exactly the canonical room's roster |
| Invariants.NickConsistent | lib/server.go:132-152 | nick keeps the invariant |
| Invariants.NickKeepsNicksUnique | lib/server.go:141-146 | nick keeps the nicks of live sessions pairwise distinct |
| Invariants.RenameToOwnNickRefused | lib/server.go:141-143 | asking for the nick one already has is answered "already taken" and changes nothing |
| Invariants.NickRace | lib/server.go:141-146 | of two sessions asking for the same free nick in turn, the first gets it and the second is refused |
| Invariants.QuitConsistent | lib/server.go:274-281 | quit keeps the invariant; the caller is on no roster and not in the directory, and every other live session is as it was |
| Invariants.QuitKeepsNicksUnique | lib/server.go:274-281 | quit keeps the nicks of live sessions distinct |
| Invariants.JoinKeepsNicksUnique | lib/server.go:173-182 | join keeps the nicks of live sessions distinct |
| Invariants.ConnectConsistent | lib/server.go:101-115 | connecting keeps the invariant |
| Invariants.ConnectKeepsNicksUnique | lib/server.go:104-111 | connecting keeps nicks distinct provided the address is no live session's nick, which the connect step does not check |
| Invariants.DispatchConsistent | lib/server.go:74-98 | every command from a live session keeps the invariant |
| Invariants.DispatchKeepsNicksUnique | lib/server.go:74-98 | every command keeps the nicks of live sessions distinct |
| Invariants.HandleConsistent | lib/server.go:63-98 | handling any input the readers and the accept loop can produce keeps the invariant |
| Invariants.RunConsistent | lib/server.go:74-98 | after any admissible sequence of inputs the invariant still holds |
| Invariants.RunStep | lib/server.go:74-98 | the loop handles the first input to completion and then the rest from the state it leaves |
| Invariants.RunAppend | lib/server.go:74-98 | running two input sequences back to back, the second numbered on from the first, reaches the same state as running their concatenation, and each connection receives the first run's writes followed by the second's |
| Invariants.SelfMessageRefused | lib/server.go:214-216 | with distinct nicks a private message to one's own nick is refused with "you can't send message to yourself" |
| Protocol.SlashHead | lib/client.go:51-55 | a line whose first token is a keyword is a slash command headed by that keyword, and goes through the keyword switch |
| Protocol.JoinLineJoinsKeywordRoom | lib/client.go:62-67 | a "/join NAME" line is enqueued with the whole token list, and dispatching it puts the caller in "#/join", whatever NAME is |
| Protocol.NickLineTakesKeyword | lib/client.go:56-61 | a "/nick NAME" line, once dispatched, renames the caller to "/nick" when that nick is free, whatever NAME is |
| Protocol.MsgLineLooksUpKeyword | lib/client.go:73-78 | a "/msg NICK TEXT" line, once dispatched, looks up a user called "/msg" and, with none, tells the caller "user /msg not found" |
| Protocol.WhoisLineLooksUpKeyword | lib/client.go:84-89 | a "/whois NICK" line, once dispatched, looks up a user called "/whois" and, with none, tells the caller "user /whois not found" |
| Protocol.RoomsLineListsRooms | lib/client.go:68-72 | a "/rooms" line is enqueued without arguments, and dispatching it answers the caller with the room names and changes nothing |
| Protocol.MembersLineListsMembers | lib/client.go:79-83 | a "/members" line is enqueued without arguments, and dispatching it answers the caller with every live nick and changes nothing |
| Protocol.MeLineDescribesCaller | lib/client.go:90-94 | a "/me" line, once dispatched, sends the caller at least four lines, the first naming its own nick |
| Protocol.HelpLineSendsSummary | lib/client.go:95-99 | a "/help" line, once dispatched, sends the caller the help lines in order |
| Protocol.QuitLineLeaves | lib/client.go:100-101 | a "/quit" line stops the reader, and the quit command its exit enqueues takes the caller out of the directory with the farewell |
| Protocol.ChatLineBroadcast | lib/client.go:105-110 | a line that is not a slash command, once dispatched, reaches every other member of the sender's room as "<nick>: " plus the truncated, trimmed line, and nobody else |
| Protocol.Dequeues | lib/client.go:37-113 | the dispatcher sees only a reader's commands, never its direct writes: every input is a sent command, every sent command is an input, and there are no more inputs than events |
| Protocol.DequeuesAppend | lib/client.go:37-113 | the commands of a reader's stream are those of its first part followed by those of its second, so the queue keeps the reader's order |
| Protocol.DequeuesOne | lib/client.go:37-113 | a single sent command is dequeued as itself and a direct write not at all |
| Protocol.SessionAdmissible | lib/client.go:37-113 | a live session's reader output, as the dispatcher takes it off the queue, is an admissible input sequence |
| Protocol.AcceptedSessionAdmissible | lib/server.go:64-71 | an accepted connection followed by everything its reader enqueues is an admissible input to the loop from any state that has not seen it |

## Left out

- The listener, TLS and the accept loop's error handling (lib/server.go:36-72): network I/O. An accepted connection becomes an `Accept` input carrying its id, address text and connect time.
- Goroutines, the command channel and the mutexes (lib/server.go:21, lib/room.go:12). The model is the serialized dispatcher. `newClient` runs `addMember` and `join` on the accept goroutine, outside the queue. Here it is one atomic step between commands, and the race with the dispatcher is not modelled.
- Time: the connect time and the elapsed time that `whois` prints are opaque strings passed in. They are not computed from a clock.
- Go map iteration order: the orders in which `listRooms`, `listMembers` and `findClientByNick` walk their maps are inputs. Each must list the map's keys once. Over a run they come from a function of the step number and the state, so two visits to the same state may walk the maps differently. What the orders are is not modelled.
- Connection identity: a connection is a `nat` id. Go compares the `net.Addr` values that `RemoteAddr` returns, and one connection always returns the same one.
- `conn.Write` results, `conn.Close` in `quit` and the log lines: writes are abstract deliveries, and the code ignores write errors.
- Read errors in the middle of a line: the reader's input is the list of lines read successfully before the first failed read. A partial last line at end of input is that failed read.
- Unicode white space: the `strings.TrimSpace` applied to the first token removes the ASCII white-space bytes only, since a `char` stands for one byte.
- The terminal client and flag parsing (cmd/, main.go), and the older copy of the dispatcher at the repository root (server.go, client.go, command.go), are not part of this model.

=== FILE: client.dfy ===
/** The room moves a client makes on itself (lib/client.go `join` and
    `leave`), over the server state. */
module Clients {
  import opened Wrappers
  import opened Delivery
  import opened Rooms
  import opened Sessions

  /** client.leave: a room-less client changes nothing; otherwise its room
      field is cleared and it is taken off its former room's roster, whose
      remaining members are told. */
  function Leave(s: Server, c: ConnId): (res: Step)
    requires WellFormed(s) && c in s.clients
    ensures WellFormed(res.next)
    ensures res.next.clients == s.clients[c := s.clients[c].(room := None)]
    ensures res.next.members == s.members
    ensures res.next.rooms.Keys == s.rooms.Keys
    ensures s.clients[c].room.None? ==> res.next == s && res.out == Nothing()
    ensures s.clients[c].room.Some? ==>
      var o := s.clients[c].room.value;
      && res.next.rooms == s.rooms[o := s.rooms[o].(roster := s.rooms[o].roster - {c})]
      && forall m :: Lines(res.out, m) ==
           if m in s.rooms[o].roster && m != c then [Line(LeftNotice(s.clients[c].nick))] else []
  {
    match s.clients[c].room
    case None =>
      assert s.clients[c := s.clients[c].(room := None)] == s.clients;
      Step(s, Nothing())
    case Some(o) =>
      var s1 := s.(clients := s.clients[c := s.clients[c].(room := None)]);
      var rs := Rooms.RemoveMember(s1.rooms[o], c, s1.clients[c].nick);
      Step(s1.(rooms := s1.rooms[o := rs.room]), rs.out)
  }

  /** client.join(r): leave the current room, point the room field at `r`,
      and join `r`'s roster. The client is on `r`'s roster afterwards and on
      no other one it was on before. */
  function Join(s: Server, c: ConnId, r: string): (res: Step)
    requires WellFormed(s) && c in s.clients && r in s.rooms
    ensures WellFormed(res.next)
    ensures res.next.clients == s.clients[c := s.clients[c].(room := Some(r))]
    ensures res.next.members == s.members
    ensures res.next.rooms.Keys == s.rooms.Keys
    ensures res.next.rooms[r].roster ==
      (if s.clients[c].room == Some(r) then s.rooms[r].roster - {c} else s.rooms[r].roster) + {c}
    ensures s.clients[c].room.Some? && s.clients[c].room.value != r ==>
      var o := s.clients[c].room.value;
      res.next.rooms[o].roster == s.rooms[o].roster - {c}
    ensures forall k :: k in s.rooms && k != r && Some(k) != s.clients[c].room ==> res.next.rooms[k] == s.rooms[k]
  {
    var l := Leave(s, c);
    var e := Enter(l.next, c, r);
    Step(e.next, Then(l.out, e.out))
  }

  /** The second half of client.join for a client in no room: point its room
      field at `r` and put it on `r`'s roster, telling the others there. */
  function Enter(s: Server, c: ConnId, r: string): (res: Step)
    requires WellFormed(s) && c in s.clients && r in s.rooms && s.clients[c].room.None?
    ensures WellFormed(res.next)
    ensures res.next.clients == s.clients[c := s.clients[c].(room := Some(r))]
    ensures res.next.members == s.members
    ensures res.next.rooms == s.rooms[r := s.rooms[r].(roster := s.rooms[r].roster + {c})]
    ensures forall m ::
      Lines(res.out, m) ==
        if m in s.rooms[r].roster && m != c then [Line(JoinedNotice(s.clients[c].nick))] else []
  {
    var rs := Rooms.AddMember(s.rooms[r], c, s.clients[c].nick);
    Step(s.(clients := s.clients[c := s.clients[c].(room := Some(r))], rooms := s.rooms[r := rs.room]), rs.out)
  }

  /** What client.join(r) writes: nothing to the client itself; to every
      other client, the left notice if it shared the old room, then the
      joined notice if it is on `r`'s roster. */
  lemma JoinWrites(s: Server, c: ConnId, r: string)
    requires WellFormed(s) && c in s.clients && r in s.rooms
    ensures var out := Join(s, c, r).out;
      && Lines(out, c) == []
      && forall m :: m != c ==>
           Lines(out, m) ==
             (if s.clients[c].room.Some? && m in s.rooms[s.clients[c].room.value].roster
              then [Line(LeftNotice(s.clients[c].nick))] else [])
             + (if m in s.rooms[r].roster then [Line(JoinedNotice(s.clients[c].nick))] else [])
  {
    var l := Leave(s, c);
    assert l.next.rooms[r].roster == if s.clients[c].room == Some(r) then s.rooms[r].roster - {c} else s.rooms[r].roster;
  }
}

=== FILE: command.dfy ===
/** The unit of work a connection reader hands to the dispatcher
    (lib/command.go). */
module Commands {
  import opened Wrappers
  import opened Delivery

  /** The command kinds, in declaration order. */
  datatype Kind =
    | CmdNick
    | CmdJoin
    | CmdRooms
    | CmdMsg
    | CmdMsgUser
    | CmdListMembers
    | CmdWhois
    | CmdMe
    | CmdHelp
    | CmdQuit

  /** Every kind, in declaration order; position i holds the kind whose
      `iota` value is i. */
  const AllKinds: seq<Kind> := [CmdNick, CmdJoin, CmdRooms, CmdMsg, CmdMsgUser,
                                CmdListMembers, CmdWhois, CmdMe, CmdHelp, CmdQuit]

  /** The integer value Go's `iota` gives each kind. */
  function Value(k: Kind): (v: nat)
    ensures v < |AllKinds| && AllKinds[v] == k
  {
    match k
    case CmdNick => 0
    case CmdJoin => 1
    case CmdRooms => 2
    case CmdMsg => 3
    case CmdMsgUser => 4
    case CmdListMembers => 5
    case CmdWhois => 6
    case CmdMe => 7
    case CmdHelp => 8
    case CmdQuit => 9
  }

  /** The kind with a given integer value, if any. */
  function FromValue(v: int): (r: Option<Kind>)
    ensures r.Some? <==> 0 <= v < 10
    ensures r.Some? ==> Value(r.value) == v
  {
    if 0 <= v < |AllKinds| then Some(AllKinds[v]) else None
  }

  /** There are exactly ten kinds, pairwise distinct, numbered 0..9. */
  lemma KindsAreTenDistinct()
    ensures |AllKinds| == 10
    ensures forall i, j :: 0 <= i < j < |AllKinds| ==> AllKinds[i] != AllKinds[j]
    ensures forall k: Kind :: Value(k) < 10 && FromValue(Value(k)) == Some(k)
  {
  }

  /** Distinct kinds have distinct values. */
  lemma ValueInjective(a: Kind, b: Kind)
    ensures Value(a) == Value(b) <==> a == b
  {
  }

  /** A command: its kind, the client that issued it and the argument tokens.
      Being a datatype value, it cannot be changed once built. */
  datatype Command = Command(kind: Kind, client: ConnId, args: seq<string>)
}

=== FILE: delivery.dfy ===
/** What the server writes to connections. A connection is identified by a
    stable id (the key Go takes from `conn.RemoteAddr()`), and the effect of a
    handler on the outside world is, per connection, the ordered list of
    strings written to it. */
module Delivery {

  /** Stable identity of one accepted connection; never reused. */
  type ConnId = nat

  /** client.Equal: two clients are the same when their connections'
      remote addresses are; a connection id stands for that address. */
  predicate Equal(c: ConnId, other: ConnId) {
    c == other
  }

  /** For each connection, the strings written to it in order. */
  type Mail = map<ConnId, seq<string>>

  /** The strings written to connection `id`. */
  function Lines(o: Mail, id: ConnId): seq<string> {
    if id in o then o[id] else []
  }

  /** What `client.msg(text)` writes: the text and a newline. */
  function Line(text: string): string {
    text + "\n"
  }

  /** No connection is written to. */
  function Nothing(): (o: Mail)
    ensures forall id :: Lines(o, id) == []
  {
    map[]
  }

  /** One `client.msg(text)` call on connection `to`. */
  function Reply(to: ConnId, text: string): (o: Mail)
    ensures Lines(o, to) == [Line(text)]
    ensures forall id :: id != to ==> Lines(o, id) == []
  {
    map[to := [Line(text)]]
  }

  /** Several `client.msg` calls on connection `to`, in order. */
  function Replies(to: ConnId, texts: seq<string>): (o: Mail)
    ensures |Lines(o, to)| == |texts|
    ensures forall i :: 0 <= i < |texts| ==> Lines(o, to)[i] == Line(texts[i])
    ensures forall id :: id != to ==> Lines(o, id) == []
  {
    map[to := seq(|texts|, i requires 0 <= i < |texts| => Line(texts[i]))]
  }

  /** The writes of `a` followed by the writes of `b`. */
  function Then(a: Mail, b: Mail): (o: Mail)
    ensures o.Keys == a.Keys + b.Keys
    ensures forall id :: Lines(o, id) == Lines(a, id) + Lines(b, id)
  {
    map id | id in a.Keys + b.Keys :: Lines(a, id) + Lines(b, id)
  }

  /** Writing nothing and then `b` is writing `b`. */
  lemma ThenNothing(b: Mail)
    ensures Then(Nothing(), b) == b
  {
    var o := Then(Nothing(), b);
    forall id | id in o ensures o[id] == b[id] {
      assert Lines(o, id) == Lines(b, id);
    }
  }

  /** Regrouping: if `w` writes what `m` and then `t` write, then `f`
      followed by `w` writes what `f` followed by `m`, and then `t`, write. */
  lemma ThenRegroup(f: Mail, m: Mail, t: Mail, w: Mail)
    requires forall id :: Lines(w, id) == Lines(m, id) + Lines(t, id)
    ensures forall id :: Lines(Then(f, w), id) == Lines(Then(f, m), id) + Lines(t, id)
  {
    forall id ensures Lines(Then(f, w), id) == Lines(Then(f, m), id) + Lines(t, id) {
      var x, y, z := Lines(f, id), Lines(m, id), Lines(t, id);
      assert x + (y + z) == (x + y) + z;
    }
  }
}

=== FILE: gostrings.dfy ===
/** The parts of Go's `strings` package that the chat server relies on.
    A Go string is a sequence of bytes; here each `char` stands for one byte,
    so `|s|` is Go's `len(s)`. */
module GoStrings {

  /** strings.HasPrefix */
  predicate HasPrefix(s: string, prefix: string) {
    |prefix| <= |s| && s[..|prefix|] == prefix
  }

  /** The bytes strings.TrimSpace treats as white space on ASCII input. */
  const AsciiSpace: set<char> := {' ', '\t', '\n', '\U{0B}', '\U{0C}', '\r'}

  /** Neither end of `s` is a character of `cut`. */
  predicate NoCutAtEnds(s: string, cut: set<char>) {
    |s| == 0 || (s[0] !in cut && s[|s| - 1] !in cut)
  }

  /** How many leading characters of `s` are in `cut`. */
  function Lead(s: string, cut: set<char>): (n: nat)
    ensures n <= |s|
    ensures forall i :: 0 <= i < n ==> s[i] in cut
    ensures n < |s| ==> s[n] !in cut
    decreases |s|
  {
    if |s| > 0 && s[0] in cut then
      var n := Lead(s[1..], cut);
      assert forall i :: 1 <= i < n + 1 ==> s[i] == s[1..][i - 1];
      1 + n
    else 0
  }

  /** How many trailing characters of `s` are in `cut`. */
  function Trail(s: string, cut: set<char>): (n: nat)
    ensures n <= |s|
    ensures forall i :: |s| - n <= i < |s| ==> s[i] in cut
    ensures n < |s| ==> s[|s| - n - 1] !in cut
    decreases |s|
  {
    if |s| > 0 && s[|s| - 1] in cut then
      var n := Trail(s[..|s| - 1], cut);
      assert forall i :: |s| - 1 - n <= i < |s| - 1 ==> s[i] == s[..|s| - 1][i];
      1 + n
    else 0
  }

  /** The bounds of what strings.Trim keeps: everything before `lo` and from
      `hi` on is in `cut`, and the characters at the two ends of the kept
      slice are not. */
  function TrimBounds(s: string, cut: set<char>): (b: (nat, nat))
    ensures b.0 <= b.1 <= |s|
    ensures forall i :: 0 <= i < b.0 ==> s[i] in cut
    ensures forall i :: b.1 <= i < |s| ==> s[i] in cut
    ensures b.0 < b.1 ==> s[b.0] !in cut && s[b.1 - 1] !in cut
  {
    var lo := Lead(s, cut);
    if lo == |s| then (lo, lo)
    else
      var n := Trail(s, cut);
      (lo, |s| - n)
  }

  /** strings.Trim(s, cutset): the slice of `s` left once every leading and
      trailing `cut` character is removed; interior characters are kept. */
  function Trim(s: string, cut: set<char>): (r: string)
    ensures NoCutAtEnds(r, cut)
    ensures var b := TrimBounds(s, cut); r == s[b.0..b.1]
  {
    var b := TrimBounds(s, cut);
    s[b.0..b.1]
  }

  /** A string without cut characters at its ends is its own trim. */
  lemma TrimFixesTrimmed(s: string, cut: set<char>)
    requires NoCutAtEnds(s, cut)
    ensures Trim(s, cut) == s
  {
    if |s| > 0 {
      assert Lead(s, cut) == 0;
      assert Trail(s, cut) == 0;
    }
  }

  /** Trimming twice is trimming once. */
  lemma TrimIdempotent(s: string, cut: set<char>)
    ensures Trim(Trim(s, cut), cut) == Trim(s, cut)
  {
    TrimFixesTrimmed(Trim(s, cut), cut);
  }

  /** Trimming a string that is followed only by `cut` characters, and has
      none at its ends, gives the string back. */
  lemma TrimPadded(core: string, pad: string, cut: set<char>)
    requires NoCutAtEnds(core, cut)
    requires forall i :: 0 <= i < |pad| ==> pad[i] in cut
    ensures Trim(core + pad, cut) == core
  {
    var s := core + pad;
    if |core| == 0 {
      assert s == pad;
      assert Lead(s, cut) == |s|;
    } else {
      assert s[0] == core[0];
      assert Lead(s, cut) == 0;
      assert s[|core| - 1] == core[|core| - 1];
      forall i | |core| <= i < |s| ensures s[i] in cut {
        assert s[i] == pad[i - |core|];
      }
      assert Trail(s, cut) == |pad|;
      assert s[..|core|] == core;
    }
  }

  /** Index of the first occurrence of `c` in `s`. */
  function IndexOf(s: string, c: char): (i: nat)
    requires c in s
    ensures i < |s| && s[i] == c && c !in s[..i]
  {
    if s[0] == c then 0 else 1 + IndexOf(s[1..], c)
  }

  /** The first occurrence is unique: any position holding `c` with no `c`
      before it is the one IndexOf finds. */
  lemma IndexOfUnique(s: string, c: char, k: nat)
    requires k < |s| && s[k] == c && c !in s[..k]
    ensures IndexOf(s, c) == k
  {
    var i := IndexOf(s, c);
    forall j | 0 <= j < k ensures s[j] != c {
      assert s[..k][j] == s[j];
    }
    forall j | 0 <= j < i ensures s[j] != c {
      assert s[..i][j] == s[j];
    }
  }

  /** strings.Split(s, sep) for a one-byte separator: the pieces between
      separators, always at least one (Split of "" is [""]). */
  function Split(s: string, sep: char): (r: seq<string>)
    ensures |r| >= 1
    ensures forall i :: 0 <= i < |r| ==> sep !in r[i]
    decreases |s|
  {
    if sep in s then
      var i := IndexOf(s, sep);
      [s[..i]] + Split(s[i + 1..], sep)
    else
      [s]
  }

  /** strings.Join(xs, sep) */
  function Join(xs: seq<string>, sep: string): string
  {
    if |xs| == 0 then ""
    else if |xs| == 1 then xs[0]
    else xs[0] + sep + Join(xs[1..], sep)
  }

  /** Joining the pieces of a split with the separator restores the string. */
  lemma {:induction false} JoinSplit(s: string, sep: char)
    ensures Join(Split(s, sep), [sep]) == s
    decreases |s|
  {
    if sep in s {
      var i := IndexOf(s, sep);
      var rest := Split(s[i + 1..], sep);
      var xs := [s[..i]] + rest;
      assert Split(s, sep) == xs;
      JoinSplit(s[i + 1..], sep);
      assert xs[0] == s[..i] && xs[1..] == rest;
      assert Join(xs, [sep]) == s[..i] + [sep] + Join(rest, [sep]);
      assert s == s[..i] + [sep] + s[i + 1..];
    }
  }

  /** Splitting at a first separator: the piece before it, then the split of
      the rest. */
  lemma SplitCons(a: string, sep: char, tail: string)
    requires sep !in a
    ensures Split(a + [sep] + tail, sep) == [a] + Split(tail, sep)
  {
    var s := a + [sep] + tail;
    var k := |a|;
    assert s[..k] == a && s[k] == sep;
    IndexOfUnique(s, sep, k);
    assert s[k + 1..] == tail;
  }

  /** Splitting a join of separator-free pieces gives the pieces back. */
  lemma {:induction false} SplitJoin(xs: seq<string>, sep: char)
    requires |xs| >= 1
    requires forall i :: 0 <= i < |xs| ==> sep !in xs[i]
    ensures Split(Join(xs, [sep]), sep) == xs
    decreases |xs|
  {
    if |xs| == 1 {
      assert Join(xs, [sep]) == xs[0];
    } else {
      var rest := xs[1..];
      assert Join(xs, [sep]) == xs[0] + [sep] + Join(rest, [sep]);
      SplitCons(xs[0], sep, Join(rest, [sep]));
      assert forall i :: 0 <= i < |rest| ==> rest[i] == xs[i + 1];
      SplitJoin(rest, sep);
      assert xs == [xs[0]] + rest;
    }
  }
}

=== FILE: invariants.dfy ===
/** The membership invariant and nick uniqueness, handler by handler, and
    over the whole serialized loop. */
module Invariants {
  import opened Wrappers
  import opened Delivery
  import opened Commands
  import opened Rooms
  import opened Sessions
  import Clients
  import opened Dispatcher

  /** leave keeps the invariant and takes the client off every roster. */
  lemma LeaveConsistent(s: Server, c: ConnId)
    requires Consistent(s) && c in s.members
    ensures Consistent(Clients.Leave(s, c).next)
    ensures forall k :: k in s.rooms ==> c !in Clients.Leave(s, c).next.rooms[k].roster
  {
    var s' := Clients.Leave(s, c).next;
    forall m, r | m in s'.members && r in s'.rooms
      ensures s'.clients[m].room == Some(r) <==> m in s'.rooms[r].roster
    {
      if m != c {
        assert s'.clients[m] == s.clients[m];
        assert m in s'.rooms[r].roster <==> m in s.rooms[r].roster;
      } else {
        assert m !in s'.rooms[r].roster;
      }
    }
  }

  /** Putting a room-less live client into room `r` keeps the invariant. */
  lemma EnterConsistent(s: Server, c: ConnId, r: string)
    requires Consistent(s) && c in s.members && r in s.rooms && s.clients[c].room.None?
    ensures Consistent(Clients.Enter(s, c, r).next)
    ensures forall k :: k in s.rooms ==> (c in Clients.Enter(s, c, r).next.rooms[k].roster <==> k == r)
  {
    var s' := Clients.Enter(s, c, r).next;
    forall m, k | m in s'.members && k in s'.rooms
      ensures s'.clients[m].room == Some(k) <==> m in s'.rooms[k].roster
    {
      if m != c {
        assert s'.clients[m] == s.clients[m];
      }
    }
  }

  /** client.join(r) keeps the invariant, and afterwards the client is on
      `r`'s roster and on no other. */
  lemma ClientJoinConsistent(s: Server, c: ConnId, r: string)
    requires Consistent(s) && c in s.members && r in s.rooms
    ensures Consistent(Clients.Join(s, c, r).next)
    ensures forall k :: k in s.rooms ==> (c in Clients.Join(s, c, r).next.rooms[k].roster <==> k == r)
  {
    var l := Clients.Leave(s, c).next;
    LeaveConsistent(s, c);
    EnterConsistent(l, c, r);
  }

  /** Creating a room keeps the invariant: nobody names a room that was not
      there. */
  lemma GetOrCreateConsistent(s: Server, name: string)
    requires Consistent(s)
    ensures Consistent(GetOrCreateRoom(s, name).next)
  {
  }

  /** join keeps the invariant; with a room name, the caller ends up on the
      canonical room's roster and on no other. */
  lemma JoinConsistent(s: Server, c: ConnId, args: seq<string>)
    requires Consistent(s) && c in s.members
    ensures Consistent(Join(s, c, args).next)
    ensures |args| > 0 ==>
      var s' := Join(s, c, args).next;
      forall k :: k in s'.rooms ==> (c in s'.rooms[k].roster <==> k == Canonical(args[0]))
  {
    if |args| > 0 {
      var l := GetOrCreateRoom(s, args[0]);
      GetOrCreateConsistent(s, args[0]);
      ClientJoinConsistent(l.next, c, l.name);
    }
  }

  /** nick keeps the invariant: rooms and room fields do not change. */
  lemma NickConsistent(s: Server, c: ConnId, args: seq<string>, order: seq<ConnId>)
    requires Consistent(s) && c in s.clients && Enumerates(order, s.members)
    ensures Consistent(Nick(s, c, args, order).next)
  {
  }

  /** nick keeps the nicks of live sessions pairwise distinct. */
  lemma NickKeepsNicksUnique(s: Server, c: ConnId, args: seq<string>, order: seq<ConnId>)
    requires WellFormed(s) && UniqueNicks(s) && c in s.clients && Enumerates(order, s.members)
    ensures UniqueNicks(Nick(s, c, args, order).next)
  {
    var s' := Nick(s, c, args, order).next;
    if |args| > 0 && !NickTaken(s, args[0]) {
      forall a, b | a in s'.members && b in s'.members && a in s'.clients && b in s'.clients && a != b
        ensures s'.clients[a].nick != s'.clients[b].nick
      {
        if a == c {
          assert s'.clients[b].nick == s.clients[b].nick;
        } else if b == c {
          assert s'.clients[a].nick == s.clients[a].nick;
        }
      }
    }
  }

  /** Renaming a live session to the nick it already has is refused. */
  lemma RenameToOwnNickRefused(s: Server, c: ConnId, args: seq<string>, order: seq<ConnId>)
    requires WellFormed(s) && c in s.members && Enumerates(order, s.members)
    requires |args| > 0 && args[0] == s.clients[c].nick
    ensures Nick(s, c, args, order) == Step(s, Reply(c, TakenText(args[0])))
  {
    assert NickTaken(s, args[0]);
  }

  /** Of two sessions asking for the same free nick one after the other, the
      first gets it and the second is refused and keeps its nick. */
  lemma NickRace(s: Server, a: ConnId, b: ConnId, nick: string, args: seq<string>, env1: Env, env2: Env)
    requires WellFormed(s) && a in s.members && b in s.members && a != b
    requires |args| > 0 && args[0] == nick && !NickTaken(s, nick)
    requires Fits(env1, s)
    requires Fits(env2, Nick(s, a, args, env1.memberOrder).next)
    ensures var s1 := Nick(s, a, args, env1.memberOrder).next;
      && s1.clients[a].nick == nick
      && Nick(s1, b, args, env2.memberOrder) == Step(s1, Reply(b, TakenText(nick)))
  {
    var s1 := Nick(s, a, args, env1.memberOrder).next;
    assert s1.clients[a].nick == nick;
    assert NickTaken(s1, nick);
  }

  /** quit keeps the invariant; afterwards the caller is in no roster and
      not in the directory, and every other session is as it was. */
  lemma QuitConsistent(s: Server, c: ConnId)
    requires Consistent(s) && c in s.members
    ensures var s' := Quit(s, c).next;
      && Consistent(s')
      && c !in s'.members
      && (forall k :: k in s'.rooms ==> c !in s'.rooms[k].roster)
      && (forall m :: m in s'.members ==> s'.clients[m] == s.clients[m])
  {
    var s' := Quit(s, c).next;
    forall m, r | m in s'.members && r in s'.rooms
      ensures s'.clients[m].room == Some(r) <==> m in s'.rooms[r].roster
    {
      assert m != c;
      assert m in s'.rooms[r].roster <==> m in s.rooms[r].roster;
    }
    forall k | k in s'.rooms ensures c !in s'.rooms[k].roster {
      if Some(k) != s.clients[c].room {
        assert s'.rooms[k] == s.rooms[k];
      }
    }
  }

  /** quit keeps the nicks of live sessions distinct. */
  lemma QuitKeepsNicksUnique(s: Server, c: ConnId)
    requires WellFormed(s) && UniqueNicks(s) && c in s.clients
    ensures UniqueNicks(Quit(s, c).next)
  {
  }

  /** join keeps the nicks of live sessions distinct. */
  lemma JoinKeepsNicksUnique(s: Server, c: ConnId, args: seq<string>)
    requires WellFormed(s) && UniqueNicks(s) && c in s.clients
    ensures UniqueNicks(Join(s, c, args).next)
  {
    if |args| > 0 {
      var s' := Join(s, c, args).next;
      MovingKeepsNicksUnique(s, s', c);
    }
  }

  /** Pointing one session at another room changes no nick. */
  lemma MovingKeepsNicksUnique(s: Server, s': Server, c: ConnId)
    requires UniqueNicks(s) && c in s.clients && s'.members == s.members
    requires exists r :: s'.clients == s.clients[c := s.clients[c].(room := r)]
    ensures UniqueNicks(s')
  {
    forall a, b | a in s'.members && b in s'.members && a in s'.clients && b in s'.clients && a != b
      ensures s'.clients[a].nick != s'.clients[b].nick
    {
      assert s'.clients[a].nick == s.clients[a].nick && s'.clients[b].nick == s.clients[b].nick;
    }
  }

  /** Connecting keeps the invariant. */
  lemma ConnectConsistent(s: Server, id: ConnId, addr: string, joined: string)
    requires Consistent(s) && id !in s.clients
    ensures Consistent(Connect(s, id, addr, joined).next)
  {
    var s2 := Enter(s, id, addr, joined);
    assert Consistent(s2) by {
      forall r, m | r in s2.rooms && m in s2.rooms[r].roster ensures m in s.members {
      }
      forall m, r | m in s2.members && r in s2.rooms
        ensures s2.clients[m].room == Some(r) <==> m in s2.rooms[r].roster
      {
        if m != id {
          assert s2.clients[m] == s.clients[m];
        }
      }
    }
    JoinConsistent(s2, id, [Lobby]);
  }

  /** Connecting keeps nicks distinct when the address is nobody's nick;
      the connect step itself does not check this. */
  lemma ConnectKeepsNicksUnique(s: Server, id: ConnId, addr: string, joined: string)
    requires WellFormed(s) && UniqueNicks(s) && id !in s.clients && !NickTaken(s, addr)
    ensures UniqueNicks(Connect(s, id, addr, joined).next)
  {
    var s' := Connect(s, id, addr, joined).next;
    var born := Session(addr, addr, Some(Lobby), joined);
    assert s'.clients == s.clients[id := born] && s'.members == s.members + {id};
    forall a, b | a in s'.members && b in s'.members && a in s'.clients && b in s'.clients && a != b
      ensures s'.clients[a].nick != s'.clients[b].nick
    {
      if a == id {
        assert s'.clients[b] == s.clients[b];
      } else if b == id {
        assert s'.clients[a] == s.clients[a];
      }
    }
  }

  /** One dispatcher step from a live session keeps the invariant. */
  lemma DispatchConsistent(s: Server, cmd: Command, env: Env)
    requires Consistent(s) && cmd.client in s.members && Fits(env, s)
    ensures Consistent(Dispatch(s, cmd, env).next)
  {
    match cmd.kind
    case CmdNick => NickConsistent(s, cmd.client, cmd.args, env.memberOrder);
    case CmdJoin => JoinConsistent(s, cmd.client, cmd.args);
    case CmdQuit => QuitConsistent(s, cmd.client);
    case _ =>
  }

  /** One dispatcher step keeps the nicks of live sessions distinct. */
  lemma DispatchKeepsNicksUnique(s: Server, cmd: Command, env: Env)
    requires WellFormed(s) && UniqueNicks(s) && cmd.client in s.clients && Fits(env, s)
    ensures UniqueNicks(Dispatch(s, cmd, env).next)
  {
    match cmd.kind
    case CmdNick => NickKeepsNicksUnique(s, cmd.client, cmd.args, env.memberOrder);
    case CmdJoin => JoinKeepsNicksUnique(s, cmd.client, cmd.args);
    case CmdQuit => QuitKeepsNicksUnique(s, cmd.client);
    case _ =>
  }

  /** Handling one admissible input keeps the invariant. */
  lemma HandleConsistent(s: Server, input: Input, env: Env)
    requires Consistent(s) && Fits(env, s)
    requires input.Accept? ==> input.id !in s.clients
    requires input.Dequeue? ==> input.cmd.client in s.members
    ensures Consistent(Handle(s, input, env).next)
  {
    match input
    case Accept(id, addr, joined) => ConnectConsistent(s, id, addr, joined);
    case Dequeue(cmd) => DispatchConsistent(s, cmd, env);
  }

  /** The serialized loop keeps the invariant over any admissible inputs:
      after every step, a live session names a room exactly when it is on
      that room's roster, and rosters hold live sessions only. */
  lemma {:induction false} RunConsistent(s: Server, inputs: seq<Input>, envOf: (nat, Server) -> Env, k: nat)
    requires Consistent(s) && Admissible(s.members, s.clients.Keys, inputs)
    requires forall i, t :: Fits(envOf(i, t), t)
    ensures Consistent(Run(s, inputs, envOf, k).next)
    decreases |inputs|
  {
    if |inputs| > 0 {
      var first := Handle(s, inputs[0], envOf(k, s));
      HandleConsistent(s, inputs[0], envOf(k, s));
      RunConsistent(first.next, inputs[1..], envOf, k + 1);
    }
  }

  /** One step of the loop: the first input is handled as step `k`, then the
      rest from step `k + 1`. */
  lemma RunStep(s: Server, inputs: seq<Input>, envOf: (nat, Server) -> Env, k: nat)
    requires WellFormed(s) && Admissible(s.members, s.clients.Keys, inputs) && |inputs| > 0
    requires forall i, t :: Fits(envOf(i, t), t)
    ensures var first := Handle(s, inputs[0], envOf(k, s));
      && Admissible(first.next.members, first.next.clients.Keys, inputs[1..])
      && Run(s, inputs, envOf, k).next == Run(first.next, inputs[1..], envOf, k + 1).next
      && Run(s, inputs, envOf, k).out == Then(first.out, Run(first.next, inputs[1..], envOf, k + 1).out)
  {
  }

  /** Running two input sequences back to back is running their
      concatenation: the state is the same, and each connection receives the
      writes of the first run followed by those of the second, whose steps
      are numbered on from `j`, the step after the first run's last. */
  lemma {:induction false} RunAppend(s: Server, a: seq<Input>, b: seq<Input>, envOf: (nat, Server) -> Env, k: nat, j: nat)
    requires WellFormed(s) && Admissible(s.members, s.clients.Keys, a + b)
    requires forall i, t :: Fits(envOf(i, t), t)
    requires j == k + |a|
    ensures Admissible(s.members, s.clients.Keys, a)
    ensures var mid := Run(s, a, envOf, k);
      && Admissible(mid.next.members, mid.next.clients.Keys, b)
      && Run(s, a + b, envOf, k).next == Run(mid.next, b, envOf, j).next
      && forall id :: Lines(Run(s, a + b, envOf, k).out, id) == Lines(mid.out, id) + Lines(Run(mid.next, b, envOf, j).out, id)
    decreases |a|, 1
  {
    if |a| == 0 {
      assert a + b == b && j == k;
      var whole := Run(s, b, envOf, k);
      assert Run(s, a, envOf, k) == Step(s, Nothing());
      ThenNothing(whole.out);
      assert forall id :: Lines(whole.out, id) == Lines(Then(Nothing(), whole.out), id);
    } else {
      RunAppendCons(s, a, b, envOf, k, j);
    }
  }

  /** RunAppend for a non-empty first part: the first input is handled, and
      the rest follows by RunAppend on the shorter part. */
  lemma {:induction false} RunAppendCons(s: Server, a: seq<Input>, b: seq<Input>, envOf: (nat, Server) -> Env, k: nat, j: nat)
    requires WellFormed(s) && Admissible(s.members, s.clients.Keys, a + b) && |a| > 0
    requires forall i, t :: Fits(envOf(i, t), t)
    requires j == k + |a|
    ensures Admissible(s.members, s.clients.Keys, a)
    ensures var mid := Run(s, a, envOf, k);
      && Admissible(mid.next.members, mid.next.clients.Keys, b)
      && Run(s, a + b, envOf, k).next == Run(mid.next, b, envOf, j).next
      && forall id :: Lines(Run(s, a + b, envOf, k).out, id) == Lines(mid.out, id) + Lines(Run(mid.next, b, envOf, j).out, id)
    decreases |a|, 0
  {
    ConsAppend(a, b);
    RunStep(s, a + b, envOf, k);
    var first := Handle(s, a[0], envOf(k, s));
    RunAppend(first.next, a[1..], b, envOf, k + 1, j);
    RunStep(s, a, envOf, k);
    var mid := Run(first.next, a[1..], envOf, k + 1);
    ThenRegroup(first.out, mid.out, Run(mid.next, b, envOf, j).out, Run(first.next, a[1..] + b, envOf, k + 1).out);
  }

  /** The head and tail of a concatenation whose left part is not empty. */
  lemma ConsAppend<T>(a: seq<T>, b: seq<T>)
    requires |a| > 0
    ensures (a + b)[0] == a[0] && (a + b)[1..] == a[1..] + b
  {
    assert (a + b)[1..] == a[1..] + b;
  }

  /** A private message addressed to the sender's own nick is refused when
      nicks are distinct; the sender is never the recipient. */
  lemma SelfMessageRefused(s: Server, c: ConnId, args: seq<string>, order: seq<ConnId>)
    requires WellFormed(s) && UniqueNicks(s) && c in s.members && Enumerates(order, s.members)
    requires |args| >= 2 && args[0] == s.clients[c].nick
    ensures MsgUser(s, c, args, order).out == Reply(c, SelfMessageText)
  {
  }
}

=== FILE: protocol.dfy ===
/** What the reader and the dispatcher do together with a line typed by a
    user. The reader hands a slash command its whole token list, keyword
    included, and the handlers take their operand from the first token, so
    the operand a handler sees is the keyword itself. */
module Protocol {
  import opened Wrappers
  import opened GoStrings
  import opened Delivery
  import opened Commands
  import opened Sessions
  import opened Reader
  import opened Dispatcher

  /** A line whose first token is a keyword is a slash command headed by it,
      and goes through the keyword table. */
  lemma SlashHead(c: ConnId, line: string, kw: string)
    requires Tokens(line)[0] == kw && |kw| > 0 && kw[0] == '/' && kw[|kw| - 1] !in AsciiSpace
    ensures Head(line) == kw && IsSlash(line)
    ensures Classify(c, line) == Keyword(c, kw, Tokens(line))
  {
    TrimFixesTrimmed(kw, AsciiSpace);
  }

  /** "/join NAME" puts the caller in "#/join", whatever NAME is: join reads
      the room name from the first token. */
  lemma JoinLineJoinsKeywordRoom(s: Server, c: ConnId, line: string, env: Env)
    requires WellFormed(s) && c in s.clients && Fits(env, s)
    requires Tokens(line)[0] == "/join"
    ensures var a := Classify(c, line);
      && a == Enqueue(Command(CmdJoin, c, Tokens(line)))
      && Dispatch(s, Command(CmdJoin, c, Tokens(line)), env).next.clients[c].room == Some("#/join")
  {
    SlashHead(c, line, "/join");
    KeywordTable(c, Tokens(line));
    KeywordRoomName();
    DispatchJoin(s, c, Tokens(line), env);
  }

  /** The keyword table, keyword by keyword. */
  lemma KeywordTable(c: ConnId, args: seq<string>)
    ensures Keyword(c, "/nick", args) == Enqueue(Command(CmdNick, c, args))
    ensures Keyword(c, "/join", args) == Enqueue(Command(CmdJoin, c, args))
    ensures Keyword(c, "/rooms", args) == Enqueue(Command(CmdRooms, c, []))
    ensures Keyword(c, "/msg", args) == Enqueue(Command(CmdMsgUser, c, args))
    ensures Keyword(c, "/members", args) == Enqueue(Command(CmdListMembers, c, []))
    ensures Keyword(c, "/whois", args) == Enqueue(Command(CmdWhois, c, args))
    ensures Keyword(c, "/me", args) == Enqueue(Command(CmdMe, c, []))
    ensures Keyword(c, "/help", args) == Enqueue(Command(CmdHelp, c, []))
    ensures Keyword(c, "/quit", args) == Stop
  {
  }

  /** The room "/join" names once canonicalized. */
  lemma KeywordRoomName()
    ensures Canonical("/join") == "#/join"
  {
    assert "/join"[..1][0] == '/';
  }

  /** "/nick NAME" renames the caller to "/nick" when nobody has that nick,
      whatever NAME is. */
  lemma NickLineTakesKeyword(s: Server, c: ConnId, line: string, env: Env)
    requires WellFormed(s) && c in s.clients && Fits(env, s)
    requires Tokens(line)[0] == "/nick" && !NickTaken(s, "/nick")
    ensures var a := Classify(c, line);
      && a == Enqueue(Command(CmdNick, c, Tokens(line)))
      && Dispatch(s, Command(CmdNick, c, Tokens(line)), env).next.clients[c].nick == "/nick"
  {
    SlashHead(c, line, "/nick");
    KeywordTable(c, Tokens(line));
    DispatchNick(s, c, Tokens(line), env);
  }

  /** "/msg NICK TEXT" looks for a session called "/msg"; when there is none,
      the caller is told that user "/msg" was not found. */
  lemma MsgLineLooksUpKeyword(s: Server, c: ConnId, line: string, env: Env)
    requires WellFormed(s) && c in s.clients && Fits(env, s)
    requires |Tokens(line)| >= 2 && Tokens(line)[0] == "/msg" && !NickTaken(s, "/msg")
    ensures var a := Classify(c, line);
      && a == Enqueue(Command(CmdMsgUser, c, Tokens(line)))
      && Dispatch(s, Command(CmdMsgUser, c, Tokens(line)), env).out == Reply(c, NotFoundText("/msg"))
  {
    DispatchMsgUser(s, c, Tokens(line), env);
    SlashHead(c, line, "/msg");
    KeywordTable(c, Tokens(line));
  }

  /** "/whois NICK" looks for a session called "/whois"; when there is none,
      the caller is told that user "/whois" was not found. */
  lemma WhoisLineLooksUpKeyword(s: Server, c: ConnId, line: string, env: Env)
    requires WellFormed(s) && c in s.clients && Fits(env, s)
    requires Tokens(line)[0] == "/whois" && !NickTaken(s, "/whois")
    ensures var a := Classify(c, line);
      && a == Enqueue(Command(CmdWhois, c, Tokens(line)))
      && Dispatch(s, Command(CmdWhois, c, Tokens(line)), env).out == Reply(c, NotFoundText("/whois"))
  {
    SlashHead(c, line, "/whois");
    KeywordTable(c, Tokens(line));
    DispatchWhois(s, c, Tokens(line), env);
  }

  /** "/rooms" answers the caller alone with the room names, in the order
      the room map is walked. */
  lemma RoomsLineListsRooms(s: Server, c: ConnId, line: string, env: Env)
    requires WellFormed(s) && c in s.clients && Fits(env, s)
    requires Tokens(line)[0] == "/rooms"
    ensures var a := Classify(c, line);
      var res := Dispatch(s, Command(CmdRooms, c, []), env);
      && a == Enqueue(Command(CmdRooms, c, []))
      && res.next == s
      && Lines(res.out, c) == [Line("available rooms: " + GoStrings.Join(env.roomOrder, ", "))]
  {
    SlashHead(c, line, "/rooms");
    KeywordTable(c, Tokens(line));
    DispatchRooms(s, c, [], env);
  }

  /** "/members" answers the caller alone with every live session's nick, in
      the order the directory is walked. */
  lemma MembersLineListsMembers(s: Server, c: ConnId, line: string, env: Env)
    requires WellFormed(s) && c in s.clients && Fits(env, s)
    requires Tokens(line)[0] == "/members"
    ensures var a := Classify(c, line);
      var res := Dispatch(s, Command(CmdListMembers, c, []), env);
      && a == Enqueue(Command(CmdListMembers, c, []))
      && res.next == s
      && Lines(res.out, c) == [Line("members: " + GoStrings.Join(Nicks(s, env.memberOrder), ", "))]
  {
    SlashHead(c, line, "/members");
    KeywordTable(c, Tokens(line));
    DispatchMembers(s, c, [], env);
  }

  /** "/me" describes the caller to the caller, one line per field, starting
      with its nick. */
  lemma MeLineDescribesCaller(s: Server, c: ConnId, line: string, env: Env)
    requires WellFormed(s) && c in s.clients && Fits(env, s)
    requires Tokens(line)[0] == "/me"
    ensures var a := Classify(c, line);
      var res := Dispatch(s, Command(CmdMe, c, []), env);
      && a == Enqueue(Command(CmdMe, c, []))
      && res.next == s
      && |Lines(res.out, c)| >= 4
      && Lines(res.out, c)[0] == Line("nick: " + s.clients[c].nick)
  {
    SlashHead(c, line, "/me");
    KeywordTable(c, Tokens(line));
    DispatchMe(s, c, [], env);
  }

  /** "/help" sends the caller the usage summary, one line per entry. */
  lemma HelpLineSendsSummary(s: Server, c: ConnId, line: string, env: Env)
    requires WellFormed(s) && c in s.clients && Fits(env, s)
    requires Tokens(line)[0] == "/help"
    ensures var a := Classify(c, line);
      var res := Dispatch(s, Command(CmdHelp, c, []), env);
      && a == Enqueue(Command(CmdHelp, c, []))
      && res.next == s
      && |Lines(res.out, c)| == |HelpTexts|
      && forall i :: 0 <= i < |HelpTexts| ==> Lines(res.out, c)[i] == Line(HelpTexts[i])
  {
    SlashHead(c, line, "/help");
    KeywordTable(c, Tokens(line));
    DispatchHelp(s, c, [], env);
  }

  /** "/quit" stops the reader, and the quit command it enqueues on the way
      out takes the caller out of the directory with a farewell. */
  lemma QuitLineLeaves(s: Server, c: ConnId, line: string, env: Env)
    requires WellFormed(s) && c in s.clients && Fits(env, s)
    requires Tokens(line)[0] == "/quit"
    ensures Classify(c, line) == Stop
    ensures var res := Dispatch(s, QuitOf(c), env);
      && c !in res.next.members
      && Lines(res.out, c) == [Line(FarewellText)]
  {
    SlashHead(c, line, "/quit");
    KeywordTable(c, Tokens(line));
    DispatchQuit(s, c, [], env);
  }

  /** A line that is not a slash command reaches every other member of the
      sender's room as "<nick>: " followed by the truncated, CR/LF-trimmed
      line, and nobody else. */
  lemma ChatLineBroadcast(s: Server, c: ConnId, line: string, env: Env)
    requires WellFormed(s) && c in s.clients && s.clients[c].room.Some? && Fits(env, s)
    requires !IsSlash(line)
    ensures var a := Classify(c, line);
      var r := s.clients[c].room.value;
      && a == Enqueue(Command(CmdMsg, c, Tokens(line)))
      && forall m :: Lines(Dispatch(s, Command(CmdMsg, c, Tokens(line)), env).out, m) ==
           if m in s.rooms[r].roster && m != c
           then [Line(s.clients[c].nick + ": " + Trim(ReadLimited(line), CrLf))] else []
  {
    ClassifyCases(c, line);
    ChatTokensRejoin(c, line);
    DispatchMsg(s, c, Tokens(line), env);
  }

  /** The commands a reader puts on the queue, as the dispatcher takes them
      off; its direct writes never reach the dispatcher. */
  function Dequeues(evs: seq<Event>): (ins: seq<Input>)
    ensures |ins| <= |evs|
    ensures forall i :: 0 <= i < |ins| ==> ins[i].Dequeue? && Send(ins[i].cmd) in evs
    ensures forall k :: 0 <= k < |evs| && evs[k].Send? ==> Dequeue(evs[k].cmd) in ins
  {
    if |evs| == 0 then []
    else
      match evs[0]
      case Send(cmd) => [Dequeue(cmd)] + Dequeues(evs[1..])
      case Write(_) => Dequeues(evs[1..])
  }

  /** Dequeuing keeps the order of the reader's events: a stream's commands
      are its first part's followed by its second part's. */
  lemma {:induction false} DequeuesAppend(a: seq<Event>, b: seq<Event>)
    ensures Dequeues(a + b) == Dequeues(a) + Dequeues(b)
    decreases |a|
  {
    if |a| == 0 {
      assert a + b == b;
    } else {
      assert (a + b)[0] == a[0] && (a + b)[1..] == a[1..] + b;
      DequeuesAppend(a[1..], b);
    }
  }

  /** One event: a sent command is dequeued as itself, a direct write not at all. */
  lemma DequeuesOne(e: Event)
    ensures Dequeues([e]) == if e.Send? then [Dequeue(e.cmd)] else []
  {
    assert [e][1..] == [];
  }

  /** A live session's reader output is admissible: its commands come from
      that session, and nothing follows the CmdQuit it ends with. */
  lemma {:induction false} SessionAdmissible(live: set<ConnId>, known: set<ConnId>, c: ConnId, evs: seq<Event>)
    requires c in live && |evs| >= 1 && evs[|evs| - 1] == Send(QuitOf(c))
    requires forall i :: 0 <= i < |evs| - 1 ==> !IsQuit(evs[i])
    requires forall i :: 0 <= i < |evs| && evs[i].Send? ==> evs[i].cmd.client == c
    ensures Admissible(live, known, Dequeues(evs))
    decreases |evs|
  {
    if |evs| == 1 {
      assert Dequeues(evs) == [Dequeue(QuitOf(c))];
      assert Dequeues(evs)[1..] == [];
    } else {
      var rest := evs[1..];
      assert rest[|rest| - 1] == evs[|evs| - 1];
      forall i | 0 <= i < |rest| - 1 ensures !IsQuit(rest[i]) {
        assert rest[i] == evs[i + 1];
      }
      forall i | 0 <= i < |rest| && rest[i].Send? ensures rest[i].cmd.client == c {
        assert rest[i] == evs[i + 1];
      }
      SessionAdmissible(live, known, c, rest);
      match evs[0]
      case Send(cmd) =>
        assert !IsQuit(evs[0]);
        assert Dequeues(evs)[1..] == Dequeues(rest);
      case Write(_) =>
    }
  }

  /** A connection accepted and then read to the end, its commands handled
      in the order its reader enqueued them, is an admissible run of the
      serialized loop from any state that has not seen the connection. */
  lemma AcceptedSessionAdmissible(s: Server, c: ConnId, addr: string, joined: string, lines: seq<string>)
    requires c !in s.clients.Keys
    ensures Admissible(s.members, s.clients.Keys, [Accept(c, addr, joined)] + Dequeues(ReadInput(c, lines)))
  {
    var evs := ReadInput(c, lines);
    SessionAdmissible(s.members + {c}, s.clients.Keys + {c}, c, evs);
    var ins := [Accept(c, addr, joined)] + Dequeues(evs);
    assert ins[0] == Accept(c, addr, joined) && ins[1..] == Dequeues(evs);
  }
}

=== FILE: reader.dfy ===
/** The connection reader's line front end (lib/client.go `readLimitedMessage`,
    `readInput`, `err`, `quit`) as pure functions: a line read from the
    connection becomes a command for the dispatcher, an error written straight
    back, or the end of the loop. */
module Reader {
  import opened Wrappers
  import opened GoStrings
  import opened Delivery
  import opened Commands

  /** Longest line, in bytes, the reader keeps. */
  const MaxMsgBody: nat := 4096

  /** The cut set of the CR/LF trim. */
  const CrLf: set<char> := {'\r', '\n'}

  /** readLimitedMessage on a successfully read line: lines longer than
      MaxMsgBody bytes are cut to their first MaxMsgBody bytes. */
  function ReadLimited(line: string): (r: string)
    ensures |r| <= MaxMsgBody
    ensures |r| <= |line| && r == line[..|r|]
    ensures |line| <= MaxMsgBody ==> r == line
    ensures |line| > MaxMsgBody ==> |r| == MaxMsgBody
  {
    if |line| > MaxMsgBody then line[..MaxMsgBody] else line
  }

  /** The tokens of a read line: truncated, CR/LF-trimmed, split on single
      spaces. The keyword, if any, is the first token. */
  function Tokens(line: string): (args: seq<string>)
    ensures |args| >= 1
  {
    Split(Trim(ReadLimited(line), CrLf), ' ')
  }

  /** What the reader does with one line. */
  datatype Action =
    | Enqueue(cmd: Command)   // send a command to the dispatcher
    | Complain(bytes: string) // write an error straight to the connection
    | Stop                    // leave the read loop

  /** client.err: "err: " and the message, with no newline. */
  function ErrText(message: string): string {
    "err: " + message
  }

  /** The keyword that asks for each kind, as a table independent of the
      reader's switch: plain chat and quit have none. */
  function KeywordFor(k: Kind): Option<string> {
    match k
    case CmdNick => Some("/nick")
    case CmdJoin => Some("/join")
    case CmdRooms => Some("/rooms")
    case CmdMsgUser => Some("/msg")
    case CmdListMembers => Some("/members")
    case CmdWhois => Some("/whois")
    case CmdMe => Some("/me")
    case CmdHelp => Some("/help")
    case CmdMsg => None
    case CmdQuit => None
  }

  /** The keyword table. Commands that take arguments carry the whole token
      list, keyword included; the others carry none. */
  function Keyword(c: ConnId, cmd: string, args: seq<string>): (a: Action)
    ensures a.Enqueue? <==> cmd in Keywords && cmd != "/quit"
    ensures a.Enqueue? ==> a.cmd.client == c && KeywordFor(a.cmd.kind) == Some(cmd)
    ensures a.Enqueue? ==> a.cmd.kind !in {CmdMsg, CmdQuit}
    ensures a.Stop? <==> cmd == "/quit"
    ensures a.Complain? <==> cmd !in Keywords
    ensures a.Complain? ==> a.bytes == ErrText("unknown command: " + cmd)
    ensures a.Enqueue? && a.cmd.kind in {CmdNick, CmdJoin, CmdMsgUser, CmdWhois} ==> a.cmd.args == args
    ensures a.Enqueue? && a.cmd.kind in {CmdRooms, CmdListMembers, CmdMe, CmdHelp} ==> a.cmd.args == []
  {
    if cmd == "/nick" then Enqueue(Command(CmdNick, c, args))
    else if cmd == "/join" then Enqueue(Command(CmdJoin, c, args))
    else if cmd == "/rooms" then Enqueue(Command(CmdRooms, c, []))
    else if cmd == "/msg" then Enqueue(Command(CmdMsgUser, c, args))
    else if cmd == "/members" then Enqueue(Command(CmdListMembers, c, []))
    else if cmd == "/whois" then Enqueue(Command(CmdWhois, c, args))
    else if cmd == "/me" then Enqueue(Command(CmdMe, c, []))
    else if cmd == "/help" then Enqueue(Command(CmdHelp, c, []))
    else if cmd == "/quit" then Stop
    else Complain(ErrText("unknown command: " + cmd))
  }

  /** The keywords the table knows. */
  const Keywords: set<string> :=
    {"/nick", "/join", "/rooms", "/msg", "/members", "/whois", "/me", "/help", "/quit"}

  /** The first token, space-trimmed, as the reader tests it. */
  function Head(line: string): string {
    Trim(Tokens(line)[0], AsciiSpace)
  }

  /** A line is a slash command when its trimmed first token starts with '/'. */
  predicate IsSlash(line: string) {
    |Head(line)| > 0 && Head(line)[0] == '/'
  }

  /** One iteration of the read loop on a successfully read line. */
  function Classify(c: ConnId, line: string): (a: Action)
    ensures a.Enqueue? ==> a.cmd.client == c && a.cmd.kind != CmdQuit
  {
    if IsSlash(line) then Keyword(c, Head(line), Tokens(line))
    else Enqueue(Command(CmdMsg, c, Tokens(line)))
  }

  /** How a line is classified: a slash line goes through the keyword table
      with the whole token list, anything else is plain chat. */
  lemma ClassifyCases(c: ConnId, line: string)
    ensures var a := Classify(c, line);
      && (!IsSlash(line) ==> a == Enqueue(Command(CmdMsg, c, Tokens(line))))
      && (IsSlash(line) && a.Enqueue? ==> a.cmd.kind != CmdMsg)
      && (a.Complain? <==> IsSlash(line) && Head(line) !in Keywords)
      && (a.Complain? ==> a.bytes == ErrText("unknown command: " + Head(line)))
      && (a.Stop? <==> IsSlash(line) && Head(line) == "/quit")
      && (a.Enqueue? && IsSlash(line) ==> KeywordFor(a.cmd.kind) == Some(Head(line)))
      && (a.Enqueue? && a.cmd.kind in {CmdNick, CmdJoin, CmdMsg, CmdMsgUser, CmdWhois} ==>
            a.cmd.args == Tokens(line))
      && (a.Enqueue? && a.cmd.kind in {CmdRooms, CmdListMembers, CmdMe, CmdHelp} ==> a.cmd.args == [])
  {
  }

  /** A line that fits the limit and ends in CR/LF characters is split on
      what comes before them. */
  lemma TokensOfLine(body: string, pad: string)
    requires NoCutAtEnds(body, CrLf)
    requires forall i :: 0 <= i < |pad| ==> pad[i] in CrLf
    requires |body| + |pad| <= MaxMsgBody
    ensures Tokens(body + pad) == Split(body, ' ')
  {
    assert ReadLimited(body + pad) == body + pad;
    TrimPadded(body, pad, CrLf);
  }

  /** What a reader produces, in order. */
  datatype Event =
    | Send(cmd: Command)   // a command put on the dispatcher's queue
    | Write(bytes: string) // bytes written straight to the connection

  /** The command `client.quit` enqueues: no arguments. */
  function QuitOf(c: ConnId): Command {
    Command(CmdQuit, c, [])
  }

  predicate IsQuit(e: Event) {
    e.Send? && e.cmd.kind == CmdQuit
  }

  /** The action of each read line, in order. */
  function Classified(c: ConnId, lines: seq<string>): (acts: seq<Action>)
    ensures |acts| == |lines|
    ensures Own(c, acts)
  {
    if |lines| == 0 then [] else [Classify(c, lines[0])] + Classified(c, lines[1..])
  }

  /** The i-th action is the i-th line's. */
  lemma {:induction false} ClassifiedAt(c: ConnId, lines: seq<string>, i: nat)
    requires i < |lines|
    ensures Classified(c, lines)[i] == Classify(c, lines[i])
    decreases i
  {
    if i > 0 {
      ClassifiedAt(c, lines[1..], i - 1);
      assert lines[1..][i - 1] == lines[i];
    }
  }

  /** Every command among `acts` is `c`'s and none is a CmdQuit. */
  ghost predicate Own(c: ConnId, acts: seq<Action>) {
    forall i :: 0 <= i < |acts| && acts[i].Enqueue? ==> acts[i].cmd.client == c && acts[i].cmd.kind != CmdQuit
  }

  /** The read loop driven by the actions of the lines read: it stops at the
      first Stop, or when the lines run out because the next read fails, and
      in either case the deferred `quit` enqueues one CmdQuit. */
  function Loop(c: ConnId, acts: seq<Action>): (evs: seq<Event>)
    ensures 1 <= |evs| <= |acts| + 1
    ensures evs[|evs| - 1] == Send(QuitOf(c))
    ensures forall i :: 0 <= i < |evs| - 1 ==> !acts[i].Stop? && evs[i] == EventOf(acts[i])
    ensures |evs| - 1 < |acts| ==> acts[|evs| - 1].Stop?
    decreases |acts|
  {
    if |acts| == 0 then [Send(QuitOf(c))]
    else
      match acts[0]
      case Stop => [Send(QuitOf(c))]
      case Enqueue(cmd) => [Send(cmd)] + Loop(c, acts[1..])
      case Complain(bytes) => [Write(bytes)] + Loop(c, acts[1..])
  }

  /** client.readInput over the lines that were read successfully, after
      which the next read fails. Every exit of the loop enqueues exactly one
      CmdQuit, as its last event (the deferred `quit`), and every command
      sent is the reader's own client's. */
  function ReadInput(c: ConnId, lines: seq<string>): (evs: seq<Event>)
    ensures 1 <= |evs| <= |lines| + 1
    ensures evs[|evs| - 1] == Send(QuitOf(c))
    ensures forall i :: 0 <= i < |evs| - 1 ==> !IsQuit(evs[i])
    ensures forall i :: 0 <= i < |evs| && evs[i].Send? ==> evs[i].cmd.client == c
  {
    var acts := Classified(c, lines);
    assert |acts| == |lines| && Own(c, acts);
    var evs := Loop(c, acts);
    LoopShape(c, acts);
    evs
  }

  /** The lines before the exit each give their own event, in order, and the
      loop exits at a "/quit" line or when the lines run out. */
  lemma ReadInputEvents(c: ConnId, lines: seq<string>)
    ensures var evs := ReadInput(c, lines);
      && (forall i :: 0 <= i < |evs| - 1 ==>
            !Classify(c, lines[i]).Stop? && evs[i] == EventOf(Classify(c, lines[i])))
      && (|evs| - 1 < |lines| ==> Classify(c, lines[|evs| - 1]).Stop?)
  {
    var acts := Classified(c, lines);
    forall i | 0 <= i < |lines| ensures acts[i] == Classify(c, lines[i]) {
      ClassifiedAt(c, lines, i);
    }
  }

  /** The same, for the loop over any actions owned by `c`. */
  lemma LoopShape(c: ConnId, acts: seq<Action>)
    requires Own(c, acts)
    ensures var evs := Loop(c, acts);
      && (forall i :: 0 <= i < |evs| - 1 ==> !IsQuit(evs[i]))
      && (forall i :: 0 <= i < |evs| && evs[i].Send? ==> evs[i].cmd.client == c)
  {
    var evs := Loop(c, acts);
    forall i | 0 <= i < |evs| - 1 ensures !IsQuit(evs[i]) && (evs[i].Send? ==> evs[i].cmd.client == c) {
      assert !acts[i].Stop? && evs[i] == EventOf(acts[i]);
    }
  }

  /** The positions of the CmdQuit events among `evs`. */
  function QuitPositions(evs: seq<Event>): set<nat> {
    set i: nat | i < |evs| && IsQuit(evs[i])
  }

  /** A stream whose last event, and no other, is a CmdQuit has one quit. */
  lemma LastIsOnlyQuit(evs: seq<Event>)
    requires |evs| >= 1 && IsQuit(evs[|evs| - 1])
    requires forall i :: 0 <= i < |evs| - 1 ==> !IsQuit(evs[i])
    ensures QuitPositions(evs) == {|evs| - 1}
  {
  }

  /** Exactly one CmdQuit comes out of a reader, however its loop ends. */
  lemma OneQuit(c: ConnId, lines: seq<string>)
    ensures |QuitPositions(ReadInput(c, lines))| == 1
  {
    LastIsOnlyQuit(ReadInput(c, lines));
  }

  /** The event an enqueuing or complaining line produces. */
  function EventOf(a: Action): Event
    requires !a.Stop?
  {
    match a
    case Enqueue(cmd) => Send(cmd)
    case Complain(bytes) => Write(bytes)
  }

  /** A plain-chat command's tokens, joined with single spaces, give back the
      truncated and trimmed line. */
  lemma ChatTokensRejoin(c: ConnId, line: string)
    requires Classify(c, line).Enqueue? && Classify(c, line).cmd.kind == CmdMsg
    ensures Join(Classify(c, line).cmd.args, " ") == Trim(ReadLimited(line), CrLf)
  {
    ClassifyCases(c, line);
    JoinSplit(Trim(ReadLimited(line), CrLf), ' ');
  }
}

=== FILE: room.dfy ===
/** A chat room and its roster (lib/room.go). The roster is keyed by the
    member's connection id; the member records themselves live in the
    server state. */
module Rooms {
  import opened Delivery

  datatype Room = Room(name: string, roster: set<ConnId>)

  /** What a room operation leaves behind: the updated room and the writes. */
  datatype RoomStep = RoomStep(room: Room, out: Mail)

  function JoinedNotice(nick: string): string {
    nick + " has joined the room"
  }

  function LeftNotice(nick: string): string {
    nick + " has left the room"
  }

  /** room.broadcast: one write of `text` to every roster member whose
      connection is not the sender's, and to nobody else. Only mail is
      returned, so the roster is left as it was. */
  function Broadcast(r: Room, sender: ConnId, text: string): (o: Mail)
    ensures forall m :: Lines(o, m) == if m in r.roster && m != sender then [Line(text)] else []
  {
    map m | m in r.roster && !Equal(m, sender) :: [Line(text)]
  }

  /** The address test broadcast makes is client.Equal: a roster member
      hears the text exactly when it is not the sender. */
  lemma BroadcastSkipsEqual(r: Room, sender: ConnId, text: string)
    ensures forall m :: m in r.roster ==>
      (Lines(Broadcast(r, sender, text), m) == [] <==> Equal(m, sender))
  {
  }

  /** room.addMember: put `c` on the roster, then tell the others. */
  function AddMember(r: Room, c: ConnId, nick: string): (res: RoomStep)
    ensures res.room.name == r.name
    ensures res.room.roster == r.roster + {c}
    ensures c in r.roster ==> res.room == r
    ensures forall m :: Lines(res.out, m) == if m in r.roster && m != c then [Line(JoinedNotice(nick))] else []
  {
    var r' := r.(roster := r.roster + {c});
    RoomStep(r', Broadcast(r', c, JoinedNotice(nick)))
  }

  /** room.removeMember: take `c` off the roster, then tell those left. The
      notice goes out even when `c` was not on the roster. */
  function RemoveMember(r: Room, c: ConnId, nick: string): (res: RoomStep)
    ensures res.room.name == r.name
    ensures res.room.roster == r.roster - {c}
    ensures c !in res.room.roster
    ensures c !in r.roster ==> res.room == r
    ensures forall m :: Lines(res.out, m) == if m in r.roster && m != c then [Line(LeftNotice(nick))] else []
  {
    var r' := r.(roster := r.roster - {c});
    RoomStep(r', Broadcast(r', c, LeftNotice(nick)))
  }

  /** Removing a newcomer undoes adding it. */
  lemma RemoveUndoesAdd(r: Room, c: ConnId, nick: string)
    requires c !in r.roster
    ensures RemoveMember(AddMember(r, c, nick).room, c, nick).room == r
  {
    assert r.roster + {c} - {c} == r.roster;
  }
}

=== FILE: server.dfy ===
/** The dispatcher of lib/server.go: room lookup, the command handlers, the
    connect step and the serialized command loop. Every handler is a function
    from the state and one command's inputs to the next state and the writes
    it makes. */
module Dispatcher {
  import opened Wrappers
  import opened GoStrings
  import opened Delivery
  import opened Commands
  import opened Rooms
  import opened Sessions
  import Clients

  /** What the Go runtime and clock decide for one handler: the order in
      which the directory and the room table are iterated, and the elapsed
      time text `whois` prints. */
  datatype Env = Env(memberOrder: seq<ConnId>, roomOrder: seq<string>, since: string)

  /** The iteration orders are orders of the maps as they are in `s`. */
  ghost predicate Fits(env: Env, s: Server) {
    && Enumerates(env.memberOrder, s.members)
    && Enumerates(env.roomOrder, s.rooms.Keys)
  }

  const NickUsage := "nick is required. usage: /nick NAME"
  const JoinUsage := "room name is required. usage: /join ROOM_NAME"
  const MsgUserUsage := "message is required, usage: /msg NICK MSG"
  const WhoisUsage := "nick is required. usage: /whois NICK"
  const NoRoomText := "you must join a room first."
  const SelfMessageText := "you can't send message to yourself"
  const FarewellText := "sad to see you go =("

  /** The room every new connection is put in. */
  const Lobby := "#lobby"

  const HelpTexts: seq<string> := [
    "available commands:",
    "/nick NAME - set your nickname",
    "/join ROOM - join a room",
    "/rooms - list available rooms",
    "/msg MSG - send a message to the current room",
    "/msg USER MSG - send a private message to a user",
    "/members - list members in the current room",
    "/whois USER - get information about a user",
    "/me - get information about yourself",
    "/help - display this help message",
    "/quit - leave the chat"
  ]

  function TakenText(nick: string): string { "nick " + nick + " is already taken" }
  function RenamedText(nick: string): string { "all right, I will call you " + nick }
  function KnownAsText(previous: string, nick: string): string { previous + " is now known as " + nick }
  function WelcomeText(room: string): string { "welcome to " + room }
  function NotFoundText(nick: string): string { "user " + nick + " not found" }
  function ChatText(nick: string, args: seq<string>): string { nick + ": " + GoStrings.Join(args, " ") }
  function PrivateText(nick: string, words: seq<string>): string {
    "private message from " + nick + ": " + GoStrings.Join(words, " ")
  }

  /** The canonical form of a room name: '#' in front, added when missing. */
  function Canonical(name: string): (r: string)
    ensures |r| > 0 && r[0] == '#'
    ensures r == name || r == "#" + name
    ensures HasPrefix(name, "#") ==> r == name
  {
    if HasPrefix(name, "#") then name else "#" + name
  }

  /** Canonicalizing a canonical name changes nothing. */
  lemma CanonicalIdempotent(name: string)
    ensures Canonical(Canonical(name)) == Canonical(name)
  {
    assert HasPrefix(Canonical(name), "#");
  }

  /** A room lookup: the next state and the canonical name found. */
  datatype Lookup = Lookup(next: Server, name: string)

  /** getOrCreateRoom: the room filed under the canonical name, created empty
      when there is none. Rooms are only ever added. */
  function GetOrCreateRoom(s: Server, name: string): (res: Lookup)
    requires WellFormed(s)
    ensures WellFormed(res.next)
    ensures res.name == Canonical(name) && res.name in res.next.rooms
    ensures res.next.clients == s.clients && res.next.members == s.members
    ensures res.next.rooms.Keys == s.rooms.Keys + {res.name}
    ensures res.name in s.rooms ==> res.next == s
    ensures res.name !in s.rooms ==> res.next.rooms == s.rooms[res.name := Room(res.name, {})]
  {
    var key := Canonical(name);
    if key in s.rooms then Lookup(s, key)
    else Lookup(s.(rooms := s.rooms[key := Room(key, {})]), key)
  }

  /** `m` sits in `order` at a position before which nobody is called `nick`. */
  ghost predicate FirstIn(s: Server, order: seq<ConnId>, nick: string, m: ConnId)
    requires forall i :: 0 <= i < |order| ==> order[i] in s.clients
  {
    exists i :: 0 <= i < |order| && order[i] == m && forall j :: 0 <= j < i ==> s.clients[order[j]].nick != nick
  }

  /** A first match in the tail is a first match in the whole order when the
      head has another nick. */
  lemma FirstShift(s: Server, order: seq<ConnId>, nick: string, r: Option<ConnId>)
    requires forall i :: 0 <= i < |order| ==> order[i] in s.clients
    requires |order| > 0 && s.clients[order[0]].nick != nick
    requires r.Some? ==> FirstIn(s, order[1..], nick, r.value)
    ensures r.Some? ==> FirstIn(s, order, nick, r.value)
  {
    if r.Some? {
      var i :| 0 <= i < |order[1..]| && order[1..][i] == r.value
        && forall j :: 0 <= j < i ==> s.clients[order[1..][j]].nick != nick;
      assert order[i + 1] == r.value;
      forall j | 0 <= j < i + 1 ensures s.clients[order[j]].nick != nick {
        if j > 0 { assert order[j] == order[1..][j - 1]; }
      }
    }
  }

  /** The first client in `order` called `nick`. */
  function FindIn(s: Server, order: seq<ConnId>, nick: string): (r: Option<ConnId>)
    requires forall i :: 0 <= i < |order| ==> order[i] in s.clients
    ensures r.None? <==> forall i :: 0 <= i < |order| ==> s.clients[order[i]].nick != nick
    ensures r.Some? ==> r.value in order && s.clients[r.value].nick == nick
    ensures r.Some? ==> FirstIn(s, order, nick, r.value)
    decreases |order|
  {
    if |order| == 0 then None
    else if s.clients[order[0]].nick == nick then Some(order[0])
    else
      var r := FindIn(s, order[1..], nick);
      assert forall i :: 1 <= i < |order| ==> order[i] == order[1..][i - 1];
      FirstShift(s, order, nick, r);
      r
  }

  /** findClientByNick: a live session called `nick`, scanning the directory
      in the order Go iterates it. Whether one is found does not depend on
      that order, and with unique nicks neither does which one. */
  function FindClientByNick(s: Server, nick: string, order: seq<ConnId>): (r: Option<ConnId>)
    requires WellFormed(s) && Enumerates(order, s.members)
    ensures r.None? <==> !NickTaken(s, nick)
    ensures r.Some? ==> r.value in s.members && s.clients[r.value].nick == nick
    ensures UniqueNicks(s) ==> forall m :: m in s.members && s.clients[m].nick == nick ==> r == Some(m)
    ensures r.Some? ==> FirstIn(s, order, nick, r.value)
  {
    FindIn(s, order, nick)
  }

  /** nick: rename the caller, unless no name is given or a live session
      (the caller included) already has it. */
  function Nick(s: Server, c: ConnId, args: seq<string>, order: seq<ConnId>): (res: Step)
    requires WellFormed(s) && c in s.clients && Enumerates(order, s.members)
    ensures WellFormed(res.next)
    ensures res.next.clients.Keys == s.clients.Keys && res.next.members == s.members && res.next.rooms == s.rooms
    ensures |args| == 0 ==> res == Step(s, Reply(c, NickUsage))
    ensures |args| > 0 && NickTaken(s, args[0]) ==> res == Step(s, Reply(c, TakenText(args[0])))
    ensures |args| > 0 && !NickTaken(s, args[0]) ==>
      && res.next == s.(clients := s.clients[c := s.clients[c].(nick := args[0])])
      && Lines(res.out, c) == [Line(RenamedText(args[0]))]
      && forall m :: m != c ==>
           Lines(res.out, m) ==
             if s.clients[c].room.Some? && m in s.rooms[s.clients[c].room.value].roster
             then [Line(KnownAsText(s.clients[c].nick, args[0]))] else []
  {
    if |args| < 1 then Step(s, Reply(c, NickUsage))
    else
      var previous := s.clients[c].nick;
      var nick := args[0];
      if FindClientByNick(s, nick, order).Some? then Step(s, Reply(c, TakenText(nick)))
      else
        var s1 := s.(clients := s.clients[c := s.clients[c].(nick := nick)]);
        var out := Reply(c, RenamedText(nick));
        match s1.clients[c].room
        case None => Step(s1, out)
        case Some(r) => Step(s1, Then(out, Broadcast(s1.rooms[r], c, KnownAsText(previous, nick))))
  }

  /** join: move the caller into the room named by its first argument,
      canonicalized and created if needed, and welcome it. */
  function Join(s: Server, c: ConnId, args: seq<string>): (res: Step)
    requires WellFormed(s) && c in s.clients
    ensures WellFormed(res.next)
    ensures res.next.clients.Keys == s.clients.Keys && res.next.members == s.members
    ensures |args| == 0 ==> res == Step(s, Reply(c, JoinUsage))
    ensures |args| > 0 ==>
      var t := Canonical(args[0]);
      && t in res.next.rooms && c in res.next.rooms[t].roster
      && res.next.clients == s.clients[c := s.clients[c].(room := Some(t))]
      && res.next.members == s.members
      && res.next.rooms.Keys == s.rooms.Keys + {t}
  {
    if |args| < 1 then Step(s, Reply(c, JoinUsage))
    else
      var l := GetOrCreateRoom(s, args[0]);
      var j := Clients.Join(l.next, c, l.name);
      assert l.next.clients == s.clients && l.next.members == s.members;
      assert j.next.rooms.Keys == s.rooms.Keys + {l.name};
      Step(j.next, Then(j.out, Reply(c, WelcomeText(l.next.rooms[l.name].name))))
  }

  /** What join writes: the caller is welcomed to the canonical room; every
      other client gets the left notice if it shared the caller's old room,
      then the joined notice if it was already in the new one. */
  lemma JoinWrites(s: Server, c: ConnId, args: seq<string>)
    requires WellFormed(s) && c in s.clients && |args| > 0
    ensures var t := Canonical(args[0]);
      var out := Join(s, c, args).out;
      && Lines(out, c) == [Line(WelcomeText(t))]
      && forall m :: m != c ==>
           Lines(out, m) ==
             (if s.clients[c].room.Some? && m in s.rooms[s.clients[c].room.value].roster
              then [Line(LeftNotice(s.clients[c].nick))] else [])
             + (if t in s.rooms && m in s.rooms[t].roster
                then [Line(JoinedNotice(s.clients[c].nick))] else [])
  {
    var l := GetOrCreateRoom(s, args[0]);
    var t := l.name;
    var j := Clients.Join(l.next, c, t);
    Clients.JoinWrites(l.next, c, t);
    assert l.next.clients == s.clients && l.next.rooms[t].name == t;
    assert Join(s, c, args).out == Then(j.out, Reply(c, WelcomeText(t)));
    assert forall m :: m in l.next.rooms[t].roster <==> t in s.rooms && m in s.rooms[t].roster;
    if s.clients[c].room.Some? {
      assert l.next.rooms[s.clients[c].room.value] == s.rooms[s.clients[c].room.value];
    }
  }

  /** listRooms: the names of the room table, in iteration order. */
  function ListRooms(s: Server, c: ConnId, order: seq<string>): (res: Step)
    requires Enumerates(order, s.rooms.Keys)
    ensures res.next == s
    ensures Lines(res.out, c) == [Line("available rooms: " + GoStrings.Join(order, ", "))]
    ensures forall m :: m != c ==> Lines(res.out, m) == []
  {
    Step(s, Reply(c, "available rooms: " + GoStrings.Join(order, ", ")))
  }

  /** msg: plain chat to the caller's room, everyone there but the caller. */
  function Msg(s: Server, c: ConnId, args: seq<string>): (res: Step)
    requires WellFormed(s) && c in s.clients
    ensures res.next == s
    ensures s.clients[c].room.None? ==> res.out == Reply(c, NoRoomText)
    ensures s.clients[c].room.Some? ==>
      var r := s.clients[c].room.value;
      forall m :: Lines(res.out, m) ==
        if m in s.rooms[r].roster && m != c then [Line(ChatText(s.clients[c].nick, args))] else []
  {
    var text := ChatText(s.clients[c].nick, args);
    match s.clients[c].room
    case Some(r) => Step(s, Broadcast(s.rooms[r], c, text))
    case None => Step(s, Reply(c, NoRoomText))
  }

  /** msgUser: a private message to the live session named by the first
      argument, carrying the remaining arguments. */
  function MsgUser(s: Server, c: ConnId, args: seq<string>, order: seq<ConnId>): (res: Step)
    requires WellFormed(s) && c in s.clients && Enumerates(order, s.members)
    ensures res.next == s
    ensures |args| < 2 ==> res.out == Reply(c, MsgUserUsage)
    ensures |args| >= 2 && !NickTaken(s, args[0]) ==> res.out == Reply(c, NotFoundText(args[0]))
    ensures |args| >= 2 && FindClientByNick(s, args[0], order) == Some(c) ==>
      res.out == Reply(c, SelfMessageText)
    ensures |args| >= 2 && NickTaken(s, args[0]) && FindClientByNick(s, args[0], order) != Some(c) ==>
      var to := FindClientByNick(s, args[0], order).value;
      && to != c && to in s.members && s.clients[to].nick == args[0]
      && res.out == Reply(to, PrivateText(s.clients[c].nick, args[1..]))
  {
    if |args| < 2 then Step(s, Reply(c, MsgUserUsage))
    else
      match FindClientByNick(s, args[0], order)
      case None => Step(s, Reply(c, NotFoundText(args[0])))
      case Some(to) =>
        if to == c then Step(s, Reply(c, SelfMessageText))
        else Step(s, Reply(to, PrivateText(s.clients[c].nick, args[1..])))
  }

  /** The nicks of the clients in `order`, in that order. */
  function Nicks(s: Server, order: seq<ConnId>): (names: seq<string>)
    requires forall i :: 0 <= i < |order| ==> order[i] in s.clients
    ensures |names| == |order|
    ensures forall i :: 0 <= i < |order| ==> names[i] == s.clients[order[i]].nick
  {
    seq(|order|, i requires 0 <= i < |order| => s.clients[order[i]].nick)
  }

  /** listMembers: the nicks of the whole directory, in iteration order
      (every live session, not only the caller's room). */
  function ListMembers(s: Server, c: ConnId, order: seq<ConnId>): (res: Step)
    requires WellFormed(s) && Enumerates(order, s.members)
    ensures res.next == s
    ensures Lines(res.out, c) == [Line("members: " + GoStrings.Join(Nicks(s, order), ", "))]
    ensures forall m :: m != c ==> Lines(res.out, m) == []
  {
    Step(s, Reply(c, "members: " + GoStrings.Join(Nicks(s, order), ", ")))
  }

  /** The listed names are exactly the nicks of the live sessions. */
  lemma ListedNicksAreMembers(s: Server, order: seq<ConnId>)
    requires WellFormed(s) && Enumerates(order, s.members)
    ensures forall n :: n in Nicks(s, order) <==> exists m :: m in s.members && s.clients[m].nick == n
  {
    var names := Nicks(s, order);
    forall n | n in names ensures exists m :: m in s.members && s.clients[m].nick == n {
      var i :| 0 <= i < |names| && names[i] == n;
      assert order[i] in s.members;
    }
    forall n | exists m :: m in s.members && s.clients[m].nick == n ensures n in names {
      var m :| m in s.members && s.clients[m].nick == n;
      var i :| 0 <= i < |order| && order[i] == m;
      assert names[i] == n;
    }
  }

  /** client.whois: what the caller is told about `other`. */
  function WhoisTexts(s: Server, other: ConnId, since: string): (texts: seq<string>)
    requires WellFormed(s) && other in s.clients
    ensures |texts| == if s.clients[other].room.Some? then 5 else 4
    ensures texts[0] == "nick: " + s.clients[other].nick
    ensures texts[1] == "addr: " + s.clients[other].addr
    ensures texts[2] == "joined: " + s.clients[other].joined
    ensures texts[3] == "since: " + since
    ensures s.clients[other].room.Some? ==> texts[4] == "room: " + s.clients[other].room.value
  {
    var o := s.clients[other];
    ["nick: " + o.nick, "addr: " + o.addr, "joined: " + o.joined, "since: " + since]
    + match o.room
      case Some(r) => ["room: " + s.rooms[r].name]
      case None => []
  }

  /** whois: describe the live session named by the first argument. */
  function Whois(s: Server, c: ConnId, args: seq<string>, order: seq<ConnId>, since: string): (res: Step)
    requires WellFormed(s) && c in s.clients && Enumerates(order, s.members)
    ensures res.next == s
    ensures forall m :: m != c ==> Lines(res.out, m) == []
    ensures |args| == 0 ==> res.out == Reply(c, WhoisUsage)
    ensures |args| > 0 && !NickTaken(s, args[0]) ==> res.out == Reply(c, NotFoundText(args[0]))
    ensures |args| > 0 && NickTaken(s, args[0]) ==>
      var other := FindClientByNick(s, args[0], order).value;
      var texts := WhoisTexts(s, other, since);
      && |Lines(res.out, c)| == |texts| >= 4
      && (forall i :: 0 <= i < |texts| ==> Lines(res.out, c)[i] == Line(texts[i]))
      && Lines(res.out, c)[0] == Line("nick: " + args[0])
  {
    if |args| < 1 then Step(s, Reply(c, WhoisUsage))
    else
      match FindClientByNick(s, args[0], order)
      case None => Step(s, Reply(c, NotFoundText(args[0])))
      case Some(other) => Step(s, Replies(c, WhoisTexts(s, other, since)))
  }

  /** me: whois on the caller itself. */
  function Me(s: Server, c: ConnId, since: string): (res: Step)
    requires WellFormed(s) && c in s.clients
    ensures res.next == s
    ensures forall m :: m != c ==> Lines(res.out, m) == []
    ensures |Lines(res.out, c)| == if s.clients[c].room.Some? then 5 else 4
    ensures Lines(res.out, c)[0] == Line("nick: " + s.clients[c].nick)
    ensures Lines(res.out, c)[1] == Line("addr: " + s.clients[c].addr)
    ensures var texts := WhoisTexts(s, c, since);
      forall i :: 0 <= i < |texts| ==> Lines(res.out, c)[i] == Line(texts[i])
  {
    Step(s, Replies(c, WhoisTexts(s, c, since)))
  }

  /** help: the fixed usage summary, to the caller only. */
  function Help(s: Server, c: ConnId): (res: Step)
    ensures res.next == s
    ensures |Lines(res.out, c)| == |HelpTexts|
    ensures forall i :: 0 <= i < |HelpTexts| ==> Lines(res.out, c)[i] == Line(HelpTexts[i])
    ensures forall m :: m != c ==> Lines(res.out, m) == []
  {
    Step(s, Replies(c, HelpTexts))
  }

  /** Server.addMember: put a client in the directory. */
  function AddMember(s: Server, c: ConnId): (s': Server)
    requires WellFormed(s) && c in s.clients
    ensures WellFormed(s')
    ensures s'.members == s.members + {c}
    ensures s'.clients == s.clients && s'.rooms == s.rooms
  {
    s.(members := s.members + {c})
  }

  /** Server.removeMember: take a client off its room's roster, if it has a
      room, and out of the directory. Its room field is left as it is. */
  function RemoveMember(s: Server, c: ConnId): (res: Step)
    requires WellFormed(s) && c in s.clients
    ensures WellFormed(res.next)
    ensures res.next.clients == s.clients
    ensures res.next.members == s.members - {c}
    ensures s.clients[c].room.None? ==> res.next.rooms == s.rooms && res.out == Nothing()
    ensures s.clients[c].room.Some? ==>
      var r := s.clients[c].room.value;
      && res.next.rooms == s.rooms[r := s.rooms[r].(roster := s.rooms[r].roster - {c})]
      && forall m :: Lines(res.out, m) ==
           if m in s.rooms[r].roster && m != c then [Line(LeftNotice(s.clients[c].nick))] else []
  {
    match s.clients[c].room
    case Some(r) =>
      var rs := Rooms.RemoveMember(s.rooms[r], c, s.clients[c].nick);
      Step(s.(rooms := s.rooms[r := rs.room], members := s.members - {c}), rs.out)
    case None =>
      Step(s.(members := s.members - {c}), Nothing())
  }

  /** quit: leave the room and the directory, then say goodbye. */
  function Quit(s: Server, c: ConnId): (res: Step)
    requires WellFormed(s) && c in s.clients
    ensures WellFormed(res.next)
    ensures res.next.clients == s.clients
    ensures res.next.members == s.members - {c}
    ensures res.next.rooms.Keys == s.rooms.Keys
    ensures c !in res.next.members
    ensures s.clients[c].room.Some? ==> c !in res.next.rooms[s.clients[c].room.value].roster
    ensures forall k :: k in s.rooms && Some(k) != s.clients[c].room ==> res.next.rooms[k] == s.rooms[k]
    ensures Lines(res.out, c) == [Line(FarewellText)]
    ensures forall m :: m != c ==>
      Lines(res.out, m) ==
        if s.clients[c].room.Some? && m in s.rooms[s.clients[c].room.value].roster
        then [Line(LeftNotice(s.clients[c].nick))] else []
  {
    var rm := RemoveMember(s, c);
    Step(rm.next, Then(rm.out, Reply(c, FarewellText)))
  }

  /** newClient as one step: a client named after its address joins the
      directory and then "#lobby". The name is not checked against the
      other nicks. */
  function Connect(s: Server, id: ConnId, addr: string, joined: string): (res: Step)
    requires WellFormed(s) && id !in s.clients
    ensures WellFormed(res.next)
    ensures res.next.members == s.members + {id}
    ensures res.next.clients == s.clients[id := Session(addr, addr, Some(Lobby), joined)]
    ensures Lobby in res.next.rooms && id in res.next.rooms[Lobby].roster
    ensures res.next.rooms.Keys == s.rooms.Keys + {Lobby}
  {
    LobbyIsCanonical();
    var s1 := Enter(s, id, addr, joined);
    assert s1.clients[id := s1.clients[id].(room := Some(Lobby))]
        == s.clients[id := Session(addr, addr, Some(Lobby), joined)];
    Join(s1, id, [Lobby])
  }

  /** The client record newClient creates, put in the directory. */
  function Enter(s: Server, id: ConnId, addr: string, joined: string): (s': Server)
    requires WellFormed(s) && id !in s.clients
    ensures WellFormed(s')
    ensures s'.clients == s.clients[id := Session(addr, addr, None, joined)]
    ensures s'.members == s.members + {id} && s'.rooms == s.rooms
  {
    AddMember(s.(clients := s.clients[id := Session(addr, addr, None, joined)]), id)
  }

  lemma LobbyIsCanonical()
    ensures Canonical(Lobby) == Lobby
  {
    assert HasPrefix(Lobby, "#");
  }

  /** What connecting writes: the newcomer is welcomed to "#lobby", and
      whoever was already there is told it joined, under its address. */
  lemma ConnectWrites(s: Server, id: ConnId, addr: string, joined: string)
    requires WellFormed(s) && id !in s.clients
    ensures var out := Connect(s, id, addr, joined).out;
      && Lines(out, id) == [Line(WelcomeText(Lobby))]
      && forall m :: m != id ==>
           Lines(out, m) ==
             if Lobby in s.rooms && m in s.rooms[Lobby].roster then [Line(JoinedNotice(addr))] else []
  {
    LobbyIsCanonical();
    JoinWrites(Enter(s, id, addr, joined), id, [Lobby]);
  }

  /** The kinds whose handlers only answer the caller. */
  predicate IsQuery(k: Kind) {
    k in {CmdRooms, CmdListMembers, CmdWhois, CmdMe, CmdHelp}
  }

  /** The handlers that leave the state as it is. */
  function Stateless(s: Server, cmd: Command, env: Env): (res: Step)
    requires WellFormed(s) && cmd.client in s.clients && Fits(env, s)
    requires cmd.kind !in {CmdNick, CmdJoin, CmdQuit}
    ensures res.next == s
    ensures IsQuery(cmd.kind) ==> forall m :: m != cmd.client ==> Lines(res.out, m) == []
  {
    var c := cmd.client;
    match cmd.kind
    case CmdRooms => ListRooms(s, c, env.roomOrder)
    case CmdMsg => Msg(s, c, cmd.args)
    case CmdMsgUser => MsgUser(s, c, cmd.args, env.memberOrder)
    case CmdListMembers => ListMembers(s, c, env.memberOrder)
    case CmdWhois => Whois(s, c, cmd.args, env.memberOrder, env.since)
    case CmdMe => Me(s, c, env.since)
    case CmdHelp => Help(s, c)
  }

  /** The handlers that change the state: nick renames, join moves between
      rooms, quit leaves the directory. Client records are never added or
      dropped here. */
  function Stateful(s: Server, cmd: Command, env: Env): (res: Step)
    requires WellFormed(s) && cmd.client in s.clients && Fits(env, s)
    requires cmd.kind in {CmdNick, CmdJoin, CmdQuit}
    ensures WellFormed(res.next)
    ensures res.next.clients.Keys == s.clients.Keys
    ensures res.next.members == if cmd.kind == CmdQuit then s.members - {cmd.client} else s.members
  {
    var c := cmd.client;
    match cmd.kind
    case CmdNick => Nick(s, c, cmd.args, env.memberOrder)
    case CmdJoin => Join(s, c, cmd.args)
    case CmdQuit => Quit(s, c)
  }

  /** The dispatcher's switch: each kind goes to exactly one handler. Only
      nick, join and quit change the state; the queries answer the caller
      alone. */
  function Dispatch(s: Server, cmd: Command, env: Env): (res: Step)
    requires WellFormed(s) && cmd.client in s.clients && Fits(env, s)
    ensures WellFormed(res.next)
    ensures res.next.clients.Keys == s.clients.Keys
    ensures res.next.members == if cmd.kind == CmdQuit then s.members - {cmd.client} else s.members
    ensures cmd.kind !in {CmdNick, CmdJoin, CmdQuit} ==> res.next == s
    ensures IsQuery(cmd.kind) ==> forall m :: m != cmd.client ==> Lines(res.out, m) == []
  {
    if cmd.kind in {CmdNick, CmdJoin, CmdQuit} then Stateful(s, cmd, env) else Stateless(s, cmd, env)
  }

  /* The switch case by case: what a command of each kind makes the
     dispatcher do, stated by its effect rather than by the handler's name. */

  /** CmdNick renames the caller when the requested nick is free. */
  lemma DispatchNick(s: Server, c: ConnId, args: seq<string>, env: Env)
    requires WellFormed(s) && c in s.clients && Fits(env, s)
    requires |args| > 0 && !NickTaken(s, args[0])
    ensures Dispatch(s, Command(CmdNick, c, args), env).next.clients[c].nick == args[0]
  {
  }

  /** CmdJoin puts the caller in the canonical room its first argument names. */
  lemma DispatchJoin(s: Server, c: ConnId, args: seq<string>, env: Env)
    requires WellFormed(s) && c in s.clients && Fits(env, s) && |args| > 0
    ensures Dispatch(s, Command(CmdJoin, c, args), env).next.clients[c].room == Some(Canonical(args[0]))
  {
  }

  /** CmdRooms answers the caller alone with the room names. */
  lemma DispatchRooms(s: Server, c: ConnId, args: seq<string>, env: Env)
    requires WellFormed(s) && c in s.clients && Fits(env, s)
    ensures var res := Dispatch(s, Command(CmdRooms, c, args), env);
      && res.next == s
      && Lines(res.out, c) == [Line("available rooms: " + GoStrings.Join(env.roomOrder, ", "))]
      && forall m :: m != c ==> Lines(res.out, m) == []
  {
  }

  /** CmdMsg is chat: every other member of the caller's room gets the line. */
  lemma DispatchMsg(s: Server, c: ConnId, args: seq<string>, env: Env)
    requires WellFormed(s) && c in s.clients && Fits(env, s) && s.clients[c].room.Some?
    ensures var res := Dispatch(s, Command(CmdMsg, c, args), env);
      var r := s.clients[c].room.value;
      && res.next == s
      && forall m :: Lines(res.out, m) ==
           if m in s.rooms[r].roster && m != c then [Line(ChatText(s.clients[c].nick, args))] else []
  {
  }

  /** CmdMsgUser looks its first argument up as a nick: an unknown nick is
      reported to the caller, and with distinct nicks the named session gets
      the private message, or the caller is refused when it named itself. */
  lemma DispatchMsgUser(s: Server, c: ConnId, args: seq<string>, env: Env)
    requires WellFormed(s) && c in s.clients && Fits(env, s)
    requires |args| >= 2
    ensures var res := Dispatch(s, Command(CmdMsgUser, c, args), env);
      && res.next == s
      && (!NickTaken(s, args[0]) ==> res.out == Reply(c, NotFoundText(args[0])))
      && (UniqueNicks(s) && c in s.members && s.clients[c].nick == args[0] ==> res.out == Reply(c, SelfMessageText))
      && (UniqueNicks(s) ==> forall m :: m in s.members && s.clients[m].nick == args[0] && m != c ==>
            res.out == Reply(m, PrivateText(s.clients[c].nick, args[1..])))
  {
  }

  /** CmdListMembers answers the caller alone with every live nick. */
  lemma DispatchMembers(s: Server, c: ConnId, args: seq<string>, env: Env)
    requires WellFormed(s) && c in s.clients && Fits(env, s)
    ensures var res := Dispatch(s, Command(CmdListMembers, c, args), env);
      && res.next == s
      && Lines(res.out, c) == [Line("members: " + GoStrings.Join(Nicks(s, env.memberOrder), ", "))]
      && forall m :: m != c ==> Lines(res.out, m) == []
  {
  }

  /** CmdWhois looks its first argument up as a nick. */
  lemma DispatchWhois(s: Server, c: ConnId, args: seq<string>, env: Env)
    requires WellFormed(s) && c in s.clients && Fits(env, s)
    requires |args| > 0 && !NickTaken(s, args[0])
    ensures Dispatch(s, Command(CmdWhois, c, args), env).out == Reply(c, NotFoundText(args[0]))
  {
  }

  /** CmdMe describes the caller to the caller. */
  lemma DispatchMe(s: Server, c: ConnId, args: seq<string>, env: Env)
    requires WellFormed(s) && c in s.clients && Fits(env, s)
    ensures var res := Dispatch(s, Command(CmdMe, c, args), env);
      var texts := WhoisTexts(s, c, env.since);
      && res.next == s
      && |Lines(res.out, c)| == |texts|
      && forall i :: 0 <= i < |texts| ==> Lines(res.out, c)[i] == Line(texts[i])
  {
  }

  /** CmdHelp sends the caller the usage summary. */
  lemma DispatchHelp(s: Server, c: ConnId, args: seq<string>, env: Env)
    requires WellFormed(s) && c in s.clients && Fits(env, s)
    ensures var res := Dispatch(s, Command(CmdHelp, c, args), env);
      && res.next == s
      && |Lines(res.out, c)| == |HelpTexts|
      && forall i :: 0 <= i < |HelpTexts| ==> Lines(res.out, c)[i] == Line(HelpTexts[i])
  {
  }

  /** CmdQuit takes the caller out of the directory with a farewell. */
  lemma DispatchQuit(s: Server, c: ConnId, args: seq<string>, env: Env)
    requires WellFormed(s) && c in s.clients && Fits(env, s)
    ensures var res := Dispatch(s, Command(CmdQuit, c, args), env);
      && c !in res.next.members
      && Lines(res.out, c) == [Line(FarewellText)]
  {
  }

  /** What reaches the dispatcher's state, in order: a connection accepted
      (with its address text and formatted connect time) or a command taken
      off the queue. */
  datatype Input = Accept(id: ConnId, addr: string, joined: string) | Dequeue(cmd: Command)

  /** Inputs as the readers produce them, from a state whose directory is
      `live` and whose client records are `known`: an accepted connection is
      new, and a command comes from a live session (its reader stops after
      enqueueing CmdQuit). */
  ghost predicate Admissible(live: set<ConnId>, known: set<ConnId>, inputs: seq<Input>)
    decreases |inputs|
  {
    || |inputs| == 0
    || match inputs[0]
       case Accept(id, _, _) =>
         id !in known && Admissible(live + {id}, known + {id}, inputs[1..])
       case Dequeue(cmd) =>
         && cmd.client in live
         && Admissible(if cmd.kind == CmdQuit then live - {cmd.client} else live, known, inputs[1..])
  }

  /** One input handled to completion. */
  function Handle(s: Server, input: Input, env: Env): (res: Step)
    requires WellFormed(s) && Fits(env, s)
    requires input.Accept? ==> input.id !in s.clients
    requires input.Dequeue? ==> input.cmd.client in s.clients
    ensures WellFormed(res.next)
    ensures input.Accept? ==>
      res.next.clients.Keys == s.clients.Keys + {input.id} && res.next.members == s.members + {input.id}
    ensures input.Dequeue? ==>
      && res.next.clients.Keys == s.clients.Keys
      && res.next.members == if input.cmd.kind == CmdQuit then s.members - {input.cmd.client} else s.members
  {
    match input
    case Accept(id, addr, joined) => Connect(s, id, addr, joined)
    case Dequeue(cmd) => Dispatch(s, cmd, env)
  }

  /** The serialized loop: each input is handled to completion, in order,
      before the next. `envOf(k, t)` gives the runtime's iteration orders
      for the `k`-th input when the state is `t`; indexing by step lets two
      visits to the same state walk the maps in different orders, as Go's
      randomised map iteration does. This call handles `inputs[0]` as step
      `k`. */
  function Run(s: Server, inputs: seq<Input>, envOf: (nat, Server) -> Env, k: nat): (res: Step)
    requires WellFormed(s) && Admissible(s.members, s.clients.Keys, inputs)
    requires forall i, t :: Fits(envOf(i, t), t)
    ensures WellFormed(res.next)
    decreases |inputs|
  {
    if |inputs| == 0 then Step(s, Nothing())
    else
      var first := Handle(s, inputs[0], envOf(k, s));
      var rest := Run(first.next, inputs[1..], envOf, k + 1);
      Step(rest.next, Then(first.out, rest.out))
  }
}

=== FILE: state.dfy ===
/** Server-wide state as the dispatcher sees it (the `Server` and `client`
    structs of lib/server.go and lib/client.go, without the connection and
    the channel). */
module Sessions {
  import opened Wrappers
  import opened Delivery
  import opened Rooms

  /** One client record: its address text, nickname, current room (the
      room's canonical name, since rooms are never removed and are keyed by
      that name) and the formatted time it connected. */
  datatype Session = Session(addr: string, nick: string, room: Option<string>, joined: string)

  /** `clients` holds every client record ever created, keyed by connection:
      a record outlives its removal from the directory, as a Go object does.
      `members` is the directory (the keys of `Server.members`), `rooms` the
      room table. */
  datatype Server = Server(clients: map<ConnId, Session>, members: set<ConnId>, rooms: map<string, Room>)

  /** What a handler leaves behind: the next state and the writes. */
  datatype Step = Step(next: Server, out: Mail)

  /** The server before any connection. */
  function Initial(): (s: Server)
    ensures s.members == {} && s.rooms == map[]
  {
    Server(map[], {}, map[])
  }

  /** Facts every pointer structure of the Go program has: directory entries
      are client objects, a room is filed under its own name, and a client's
      room pointer refers to a room of the table. */
  ghost predicate WellFormed(s: Server) {
    && s.members <= s.clients.Keys
    && (forall k :: k in s.rooms ==> s.rooms[k].name == k)
    && (forall id :: id in s.clients && s.clients[id].room.Some? ==> s.clients[id].room.value in s.rooms)
  }

  /** The membership invariant: a live session names room `r` exactly when it
      is on `r`'s roster, and rosters hold live sessions only. */
  ghost predicate Consistent(s: Server) {
    && WellFormed(s)
    && (forall m, r :: m in s.members && r in s.rooms ==>
          (s.clients[m].room == Some(r) <==> m in s.rooms[r].roster))
    && (forall r, m :: r in s.rooms && m in s.rooms[r].roster ==> m in s.members)
  }

  /** No two live sessions share a nickname. */
  ghost predicate UniqueNicks(s: Server) {
    forall a, b :: a in s.members && b in s.members && a in s.clients && b in s.clients && a != b ==>
      s.clients[a].nick != s.clients[b].nick
  }

  /** Some live session is called `nick`. */
  predicate NickTaken(s: Server, nick: string)
    requires WellFormed(s)
  {
    exists m :: m in s.members && s.clients[m].nick == nick
  }

  /** `xs` lists every element of `s` exactly once: one order in which Go may
      iterate a map whose keys are `s`. */
  ghost predicate Enumerates<T>(xs: seq<T>, s: set<T>) {
    && (forall i, j :: 0 <= i < j < |xs| ==> xs[i] != xs[j])
    && (forall i :: 0 <= i < |xs| ==> xs[i] in s)
    && (forall x :: x in s ==> x in xs)
  }

  /** Under the invariant a live session is on at most one roster. */
  lemma AtMostOneRoster(s: Server, m: ConnId, r1: string, r2: string)
    requires Consistent(s)
    requires m in s.members && r1 in s.rooms && r2 in s.rooms
    requires m in s.rooms[r1].roster && m in s.rooms[r2].roster
    ensures r1 == r2
  {
  }
}

=== FILE: wrappers.dfy ===
/** The optional value used wherever the Go code has a nil-able pointer. */
module Wrappers {

  datatype Option<+T> = None | Some(value: T)
}
